=== FILE: README.md ===
# opennode-management core in Dafny

This project models four sequential pieces of the OpenNode management service (OMS):

- **The object tree's model and container logic** (`model/model/base.py`).
  - The `Model` base class:
    - timestamps and the mtime-on-setattr rule;
    - `inherit_permissions`;
    - the single-owner role rule;
    - `features`, edited through `set_features`;
    - the marker vocabulary.
  - `ReadonlyContainer.content()` composes the persisted items with injector and extender output.
  - `AddingContainer`/`Container` mutate the tree: `add`, `_add`, `rename`, `remove` and `__delitem__`.
- **The process registry** `Proc` (`model/model/proc.py`):
  - registering and unregistering tasks;
  - the synthetic `completed` child;
  - task uptime.
- **The security grokker** (`security/grokkers.py`).
  - It turns a class's `permissions` declarations into read and write permission tables.
  - It selects an enforcing or auditing checker.
  - The check those tables drive follows the observable outcomes of `tests/test_security.py`.
  - Reading an undeclared attribute in enforcing mode raises Unauthorized (tests/test_security.py:69-71).
  - A bare (non-tuple) declaration registers only a `protectName` action (security/grokkers.py:37-42).
- **The shell completers** (`endpoint/ssh/completion_cmds.py`):
  - command, type, path, switch, `=key` switch and `key=value` completion;
  - `consumed`, `option_consumed` and `find_action`.

Everything is a pure function over immutable values:

- A node is a record.
- A container's children are a `map<string, Node>`.
- The whole tree is a map from object identity to container.
- The registry is one state value.
- Events are returned as values rather than dispatched.
- Clocks, uuid generation, tree traversal and the injector/extender subscriptions are parameters.

Modules, one per file:

| file | module | models |
|---|---|---|
| results.dfy | `Results` | `Option`, the exceptions the code raises, `Result` |
| strings.dfy | `Strings` | `startswith`, `str()` of a natural number and its inverse |
| models.dfy | `Models` | `Model`, `MarkerSourceBinder` |
| containers.dfy | `Containers` | `ReadonlyContainer`, `AddingContainer`, `Container` |
| procs.dfy | `Procs` | `Proc`, `CompletedProc`, `Task` |
| security.dfy | `Security` | `SecurityGrokker`, the permission check |
| completion.dfy | `Completion` | the completers |

Source paths below are relative to the repository root, under `opennode/oms/`.

## Model

| member | source | states |
|---|---|---|
| Models.NewModel | opennode/oms/model/model/base.py:106-119 | A new model has ctime = mtime = the creation time, no parent or name, is not transient and does not inherit permissions, has only its class's features and no owner |
| Models.SetAttr | opennode/oms/model/model/base.py:121-131 | Assigning the read-only properties `ctime` or `mtime` raises AttributeError and changes nothing; any other plain attribute is stored, mtime becomes now exactly when the name refreshes mtime and is otherwise unchanged, and nothing else changes |
| Models.MtimeRule | opennode/oms/model/model/base.py:215-220 | Names starting with `_` and the blacklisted names (`owner`, `oid`, `metadata`) leave mtime unchanged; every other assignable name sets it to now; `ctime`/`mtime` cannot be assigned |
| Models.PropertySettersKeepMtime | opennode/oms/model/model/base.py:115-220 | Assigning `features`, `inherit_permissions` or `__owner__` leaves mtime as the `__setattr__` rule gives for that name: unchanged, because the first two are blacklisted and `__owner__` starts with `_` |
| Models.InheritPermissions | opennode/oms/model/model/base.py:140-141 | `inherit_permissions` reads true for a transient node whatever was stored, and the stored flag otherwise |
| Models.SetInheritPermissions | opennode/oms/model/model/base.py:137-143 | After setting `inherit_permissions` to v it reads `v or transient`; only the stored flag changes |
| Models.GetOwner | opennode/oms/model/model/base.py:153-160 | `get_owner` fails its assertion exactly when more than one principal holds an Allow owner role, returns None exactly when none does, and otherwise returns the unique owner |
| Models.ReassignOwnerSingle | opennode/oms/model/model/base.py:145-148 | Unsetting the previous owner's role and assigning the new one leaves exactly the new principal as owner |
| Models.SetOwnerAsWritten | opennode/oms/model/model/base.py:145-151 | `set_owner` as written: with several owners the assertion fails and nothing changes; for `None` the previous owner's role is removed and then AttributeError is raised, leaving no owner; otherwise exactly p is left as owner; nothing but the roles changes |
| Models.SetOwnerAsWrittenNoneDropsOwner | opennode/oms/model/model/base.py:146-148 | Witness: `set_owner(None)` on a node owned by "alice" leaves no owner and raises AttributeError |
| Models.SetOwnerAsWrittenNeverSignals | opennode/oms/model/model/base.py:150-151 | As written, no OwnerChanged event is ever emitted, because the guard re-reads the owner after the new role is assigned |
| Models.SetOwnerAsWrittenMissesChange | opennode/oms/model/model/base.py:145-151 | Witness: handing a node owned by "alice" to "bob" emits no event |
| Models.SetOwner | opennode/oms/model/model/base.py:145-151 | Corrected `set_owner`: the same role update, and an OwnerChanged(previous, p) event exactly when the previous owner was not p |
| Models.SetThenGetOwner | opennode/oms/model/model/base.py:145-160 | `set_owner(p)` then `get_owner()` yields p |
| Models.OwnerStaysUnique | opennode/oms/model/model/base.py:145-160 | After any sequence of `set_owner` calls at most one principal owns the node, and it is the last one set |
| Models.Features | opennode/oms/model/model/base.py:164-175 | `get_features` holds every interface the class implements and every directly provided one, and nothing else |
| Models.SetFeatures | opennode/oms/model/model/base.py:178-211 | `set_features` changes only the directly provided interfaces; class interfaces and every name that is not a declared marker are untouched |
| Models.NonMarkersUntouched | opennode/oms/model/model/base.py:189-211 | No value, whatever its operator, adds or removes a name that is not a declared marker |
| Models.ApplyFeaturesLastEffect | opennode/oms/model/model/base.py:200-211 | A marker ends up provided iff the last value that affects it adds it, or no value affects it and it was provided before |
| Models.AddsOnlyEffect | opennode/oms/model/model/base.py:195-211 | Without `+`/`-` values no value removes a marker, and a marker is added iff it is listed |
| Models.SetFeaturesReplaceAll | opennode/oms/model/model/base.py:195-211 | With no `+`/`-` value the direct markers become exactly the listed names that are declared markers; other direct interfaces stay |
| Models.SetFeaturesAdd | opennode/oms/model/model/base.py:200-211 | `+x` for a declared marker x adds exactly x |
| Models.SetFeaturesRemove | opennode/oms/model/model/base.py:200-209 | `-x` removes x exactly when x was a feature at the start of the call |
| Models.SetFeaturesAddThenRemove | opennode/oms/model/model/base.py:187-211 | Because `-x` consults the features at call start, `["+x", "-x"]` on a node without x leaves x provided |
| Models.MarkerVocabulary | opennode/oms/model/model/base.py:71-82 | The vocabulary holds exactly each marker bare, with `+` and with `-`, plus the current features (the class's features when the context is a class) |
| Models.VocabularyTermsAreMarkers | opennode/oms/model/model/base.py:71-82 | Every vocabulary term that is not a current feature names a declared marker once its operator is stripped |
| Containers.InjectPassIsFirstWins | opennode/oms/model/model/base.py:291-300 | The injection loop equals the reference union in which the first applicable injector proposing a name wins, under the already persisted items |
| Containers.ExtendPassIsLastWins | opennode/oms/model/model/base.py:304-315 | The extension loop equals the items overlaid with the reference union in which the last applicable extender wins |
| Containers.Content | opennode/oms/model/model/base.py:290-317 | `content()` persists the injected names over the old items and returns the persisted items overlaid with the extenders' transient children |
| Containers.FirstWinsPicksFirst | opennode/oms/model/model/base.py:291-300 | A name is injected iff an applicable injector proposes it, and it carries the model of the first such injector with the container as parent |
| Containers.LastWinsPicksLast | opennode/oms/model/model/base.py:304-315 | A name is extended iff an applicable extender proposes it, and it carries the last such extender's model, made transient, permission-inheriting and parented to the container |
| Containers.ExtendedChildrenAreTransient | opennode/oms/model/model/base.py:310-314 | Every extender-supplied child has the container as parent, is transient and reads `inherit_permissions` as true |
| Containers.FirstWinsIgnoresUnmatched | opennode/oms/model/model/base.py:293-295 | Injectors whose filter the container does not match contribute nothing |
| Containers.LastWinsIgnoresUnmatched | opennode/oms/model/model/base.py:306-308 | Extenders whose filter the container does not match contribute nothing |
| Containers.UnmatchedInjectorIsInert | opennode/oms/model/model/base.py:291-295 | Inserting anywhere an injector with a non-empty filter that matches none of the container's interfaces leaves `content()` unchanged |
| Containers.UnmatchedExtenderIsInert | opennode/oms/model/model/base.py:304-308 | The same for an extender |
| Containers.ContentPersistence | opennode/oms/model/model/base.py:297-317 | Afterwards the persisted items are the old items unchanged plus exactly the injected names that were absent, each parented to the container; the extenders never affect what is persisted |
| Containers.ContentExtenderWins | opennode/oms/model/model/base.py:302-317 | A visible name is persisted or extended; an extended name shows the extender's transient child, overriding persisted and injected models; every other name shows the persisted model |
| Containers.ContentIdempotent | opennode/oms/model/model/base.py:290-317 | A second `content()` whose providers return the same mappings composes the same result and persists nothing more. In the program `inject` and `extend` build a fresh `self.__class__()` on every call (base.py:245, 258), so only names and contents repeat, not object identity |
| Containers.ContentExample | opennode/oms/model/model/base.py:290-317 | Worked case: persisted {a}, injector {b, c}, extender {c, d}: persisted becomes {a, b, c}; visible is {a, b, c from the extender, d} |
| Containers.GetItem | opennode/oms/model/model/base.py:273-274 | `__getitem__` finds a name iff it is persisted, injected or extended, and yields None otherwise. The value is the extender's child if extended, else the persisted model if persisted, else the first injector's adopted model. Like `content()`, it leaves the container with the injected names persisted |
| Containers.ListNames | opennode/oms/model/model/base.py:276-277 | `listnames` is the union of persisted, injected and extended names, and leaves the container as `content()` does |
| Containers.CanContainAsWritten | opennode/oms/model/model/base.py:329-341 | As written, a writable container never answers no: an interface containment accepts exactly a candidate that declares the interface as a marker or provides it, and raises TypeError (from `implementedBy` on an instance) for any other; a class containment raises TypeError for a non-instance |
| Containers.CanContainAsWrittenRaises | opennode/oms/model/model/base.py:338-339 | Witness: a container of `IFoo` things raises TypeError for a node that neither declares nor provides `IFoo` |
| Containers.CanContain | opennode/oms/model/model/base.py:285-341 | Corrected `can_contain`: a read-only container accepts nothing. The base `Interface` containment accepts everything. An interface containment answers without raising, yes exactly when the candidate provides the interface or declares it as a marker, no otherwise. A class containment accepts exactly the instances of the class and raises TypeError (from `issubclass` on an instance) for any other item |
| Containers.CanContainCorrectsAsWritten | opennode/oms/model/model/base.py:329-341 | The corrected and the written check accept the same candidates, and differ exactly where the written one raises for an interface containment, where the corrected one answers no |
| Containers.ClassContainmentNeverRefuses | opennode/oms/model/model/base.py:341 | A class containment never answers no for an instance: it accepts or raises |
| Containers.Remove | opennode/oms/model/model/base.py:395-396 | `remove` deletes exactly the entry under the item's name, whatever it holds, and raises KeyError when no entry has that name; every other entry is kept; a read-only container has no `remove`, so the lookup raises AttributeError |
| Containers.DelItem | opennode/oms/model/model/base.py:398-399 | `__delitem__` succeeds exactly on a writable container holding the key, deletes exactly that key and keeps every other entry; a missing key raises KeyError; a read-only container defines no `__delitem__`, so `del` raises TypeError |
| Containers.AddRaw | opennode/oms/model/model/base.py:378-393 | `_add` does nothing for an item already here; otherwise the item is removed from its former parent, stored under its name or a fresh id not already a key, parented to the container, and the name is returned |
| Containers.AddAsWritten | opennode/oms/model/model/base.py:329-357 | `add` as written: no `add` on a read-only container; the written `can_contain` raises TypeError for any candidate it does not accept, and `add` passes that on; an accepted parentless item is added by `_add`; the moved event names the target container as both old and new parent |
| Containers.AddAsWrittenRaisesOnRefusal | opennode/oms/model/model/base.py:338-348 | Witness: adding a plain node to a container of `IFoo` things raises TypeError as written, where the corrected `add` reports the containment refusal |
| Containers.AddAsWrittenForgetsOrigin | opennode/oms/model/model/base.py:350-354 | Witness: moving an item from container 7 to container 3 reports Moved(3, 3) |
| Containers.Add | opennode/oms/model/model/base.py:346-357 | Corrected `add`: it raises when `can_contain` refuses, and propagates the TypeError a class containment raises; either way the tree is unchanged. Otherwise it performs `_add` and emits Moved(old parent, container) iff the item had another parent, else Created |
| Containers.AddThenDelete | opennode/oms/model/model/base.py:378-399 | Adding a parentless item under a free name and deleting that name restores the container's items |
| Containers.RenameAsWritten | opennode/oms/model/model/base.py:359-362 | `rename` as written: KeyError for a missing old name; for equal names the entry is deleted and then KeyError is raised |
| Containers.RenameAsWrittenSameNameLosesEntry | opennode/oms/model/model/base.py:359-362 | Witness: renaming "a" to "a" leaves the container empty and fails |
| Containers.Rename | opennode/oms/model/model/base.py:359-362 | Corrected `rename`: the new name maps to the same item renamed, the old name is gone unless equal to the new, and other entries are kept |
| Containers.RenameAgreesOnDistinctNames | opennode/oms/model/model/base.py:359-362 | For distinct names the written code and the corrected one agree |
| Containers.RenameRoundTrip | opennode/oms/model/model/base.py:359-362 | Renaming a to a free b and back restores the container |
| Procs.Init | opennode/oms/model/model/proc.py:46-52 | A fresh registry holds only the init task '1' with cmdline '/bin/init' and ptid '0', no completed tasks, and counter 1 |
| Procs.Register | opennode/oms/model/model/proc.py:62-69 | Before the deferred is wired, `register` has incremented the counter, returned its decimal print as a new id, and added exactly one live task under it, timestamped now so that its uptime counts from now; completed tasks are unchanged |
| Procs.RegisterWired | opennode/oms/model/model/proc.py:62-74 | With a deferred that has already fired, `_unregister` runs inside `addBoth`, so `register` returns with the new task completed and the live tasks as before; with a pending deferred or none, the new task is live |
| Procs.RegisterDefault | opennode/oms/model/model/proc.py:62-63 | Without cmdline and ptid, the new task has no cmdline and parent task '1' |
| Procs.Unregister | opennode/oms/model/model/proc.py:76-80 | `unregister` moves the same task from live to completed, and raises KeyError exactly when the id is not live |
| Procs.Settle | opennode/oms/model/model/proc.py:82-85 | `_unregister` performs exactly `unregister` on the registry and returns its input unchanged, whatever that input is; an id that is not live raises KeyError and leaves the registry as it was |
| Procs.UnregisterOnce | opennode/oms/model/model/proc.py:76-80 | A task moves at most once: a second unregister raises KeyError |
| Procs.Content | opennode/oms/model/model/proc.py:57-60 | `content()` lists every live task and a `completed` entry holding the completed tasks |
| Procs.CompletedContent | opennode/oms/model/model/proc.py:57-96 | The content of the registry's `completed` child is exactly the registry's completed tasks |
| Procs.ContentListsEveryTask | opennode/oms/model/model/proc.py:57-96 | Under the registry invariant no live task is shadowed, and the `completed` child's content is exactly the completed map |
| Procs.Uptime | opennode/oms/model/model/proc.py:30-32 | Uptime added to the task's timestamp gives the current time, and it is never negative once the clock has reached the timestamp |
| Procs.RunKeepsHistory | opennode/oms/model/model/proc.py:62-80 | Along any sequence of registrations (with a fired, pending or absent deferred) and unregistrations, live and completed ids stay disjoint, ids handed out are never lost, the counter never decreases, and completed tasks never change |
| Procs.RegisterIdsIncrease | opennode/oms/model/model/proc.py:66-67 | Successive registrations return strictly increasing, hence distinct, ids |
| Procs.FirstRegisteredId | opennode/oms/model/model/proc.py:50-67 | The first id handed out after start-up is '2' |
| Strings.ParseNatToString | opennode/oms/model/model/proc.py:66-67 | The decimal print of the counter reads back as the counter |
| Strings.NatToStringInjective | opennode/oms/model/model/proc.py:66-67 | Distinct counters print as distinct ids |
| Security.Execute | opennode/oms/security/grokkers.py:15-44 | An empty declaration is not handled and registers nothing; otherwise the mode is enforcing iff the flag is set, and every action is about the class |
| Security.TableFromEntries | opennode/oms/security/grokkers.py:30-42 | Performing the actions, each name's read permission is that of its last declaration, and its write permission that of its last tuple declaration |
| Security.ExecuteTable | opennode/oms/security/grokkers.py:15-44 | Every declared name gets a read protection; a name gets a write protection iff some declaration of it is a tuple |
| Security.OnlyDeclaration | opennode/oms/security/grokkers.py:30-42 | A name declared once as `(r, w)` gets read r and write w; declared once bare, it gets its permission as read and no write protection |
| Security.CheckRead | opennode/oms/security/grokkers.py:19-22 | A declared attribute is readable iff its permission is held or public; an undeclared one is readable only in auditing mode; refusals are Unauthorized |
| Security.CheckWrite | opennode/oms/security/grokkers.py:19-22 | The same rule over the write table |
| Security.ReadAttr | opennode/oms/tests/test_security.py:59-71 | A proxied read returns the value iff the check passes and the attribute exists; a refused check is reported before a missing attribute |
| Security.ModesDifferOnlyOnUndeclared | opennode/oms/security/grokkers.py:19-22 | Enforcing and auditing agree on declared names; on undeclared names enforcing refuses and auditing allows |
| Security.ComputeScenario | opennode/oms/tests/test_security.py:41-71 | The test's outcomes: user1 reads `architecture`; user2 is refused it; user1 is refused the undeclared `state` |
| Completion.PrefixFilterAppend | opennode/oms/endpoint/ssh/completion_cmds.py:19-20 | Prefix filtering keeps the names' order and every occurrence: it splits over a concatenation, and one name is kept iff it starts with the token |
| Completion.CompleteCommand | opennode/oms/endpoint/ssh/completion_cmds.py:19-20 | The completions are exactly the command names starting with the token |
| Completion.CompleteObjectType | opennode/oms/endpoint/ssh/completion_cmds.py:147-148 | The completions are exactly the creatable type names starting with the token |
| Completion.Consumed | opennode/oms/endpoint/ssh/completion_cmds.py:45-72 | `consumed` is true iff the positionals' capacity is bounded and the supplied count reaches it. Supplied: 0 for a default, a list's length, else 1. Capacity: None and '?' count 1, an int n counts n, any other pattern is unbounded |
| Completion.UnboundedCapacity | opennode/oms/endpoint/ssh/completion_cmds.py:62-70 | The capacity is unbounded iff some positional has a pattern nargs other than '?' |
| Completion.NothingSupplied | opennode/oms/endpoint/ssh/completion_cmds.py:53-59 | An empty namespace supplies no positional values |
| Completion.NothingParsedConsumed | opennode/oms/endpoint/ssh/completion_cmds.py:45-72 | With nothing parsed the positionals are consumed iff they accept no values at all |
| Completion.CompletePath | opennode/oms/endpoint/ssh/completion_cmds.py:27-43 | Nothing once positionals are consumed or when the token's directory is not a container; otherwise, in listing order, each child whose joined path starts with the token, rendered; every result starts with the token |
| Completion.RenderMarksContainers | opennode/oms/endpoint/ssh/completion_cmds.py:34-40 | A completed path ends in '/' iff its child is a container (for non-empty names without a trailing slash) |
| Completion.OptionConsumed | opennode/oms/endpoint/ssh/completion_cmds.py:92-102 | Count actions and actions with `nargs > 0` (Python 2 ordering) are never consumed; a flag-style action is consumed iff its parsed value, read from its group dict for a group-dict action, differs from its default |
| Completion.OfferedOptions | opennode/oms/endpoint/ssh/completion_cmds.py:83-87 | An option is offered iff some unconsumed action declares it and it starts with the prefix |
| Completion.OfferedOptionsAppend | opennode/oms/endpoint/ssh/completion_cmds.py:83-87 | Options are offered action by action in parser order, each action's matching strings in declaration order; a string two unconsumed actions declare appears twice |
| Completion.CompleteSwitch | opennode/oms/endpoint/ssh/completion_cmds.py:79-90 | Nothing for a token without a leading '-'; otherwise exactly the option strings of the partial parser starting with the token whose action is not consumed, in the order of the offered options |
| Completion.CompleteKeywordSwitch | opennode/oms/endpoint/ssh/completion_cmds.py:110-116 | The completions are `k=` for each offered option `=k` starting with `=` + token, one per offered option, in the same order and with the same repeats |
| Completion.KeywordSwitchShape | opennode/oms/endpoint/ssh/completion_cmds.py:110-116 | Each completion ends in '=', its key starts with the token, and `=key` is an option of an unconsumed action |
| Completion.FindAction | opennode/oms/endpoint/ssh/completion_cmds.py:135-139 | `find_action` returns the first action whose dest is the keyword, and None iff there is none |
| Completion.CompleteKeywordValue | opennode/oms/endpoint/ssh/completion_cmds.py:125-133 | No '=' gives nothing. Two or more make the unpacking fail. An unknown keyword fails on `.choices`. Otherwise the completions are `keyword=c` for each declared choice c starting with the value part, one per such choice, in the order of the choices |
| Completion.KeywordValueExtendsToken | opennode/oms/endpoint/ssh/completion_cmds.py:125-131 | Every keyword-value completion starts with the token it completes |

## Left out

- Persistence is not modelled: ZODB, `OOBTree`, `db.transact` and `_p_resolveConflict`, which only picks the newest state. `_items` is a plain map.
- The class-level `_items = {}` that `ReadonlyContainer` subclasses without their own `__init__` share is not modelled. Each container has its own items.
- Iteration order of dicts and `OrderedDict` is not modelled. `listnames` is a set, and `__iter__`/`listcontent` are not modelled separately from `content()`.
- `exception_logger` around `content()` is not modelled. Its source is not part of this model; a provider that raises is not covered.
- Zope interface machinery is replaced by string sets:
  - a node provides its class interfaces and its directly provided ones;
  - `implementedBy` on classes and Symlink target following in `can_contain` are not modelled;
  - class containment (`isinstance`/`issubclass`) is a class-name set.
- `noLongerProvides` raising ValueError for an interface provided by the class is not modelled. `set_features` treats class features as untouched.
- Containers.CanContain: only instances are modelled as candidates. Passing a class, which `implementedBy` and a successful `issubclass` serve, is not modelled; so `Containers.CanContainAsWritten` raises for every refused instance, as `implementedBy` does for a non-factory.
- Models.SetOwner: the corrected setter takes a principal. What `set_owner(None)` is meant to do is not evident from the code, so the `None` case is modelled only as written, by `Models.SetOwnerAsWritten`.
- Models.SetAttr: names that run a property setter (`features`, `inherit_permissions`, `__owner__`) or stand for a field of the node record (`_ctime`, `_mtime`, `_inherit_permissions`, `__parent__`, `__name__`, `__transient__`) are excluded. The setters are `Models.SetFeatures`, `Models.SetInheritPermissions` and `Models.SetOwner`, and the fields are changed only by the operations that own them.
- The role manager is a map from principal to Allow/Deny for the `owner` role.
- Event dispatch (`handle`) is not modelled. The events are returned as values.
- Clocks are integer parameters, not `time.time()` floats.
- `uuid4` is a caller-supplied name, required to be non-empty and not already a key.
- Traversal of the base path in `PathCompleter` is a function parameter. Subscription discovery (`querySubscriptions`) is an explicit provider sequence.
- The `Singleton` metaclass on `Proc` is not modelled: the registry is one explicit state value.
- The Deferred is reduced to whether it has fired when `register` attaches `_unregister` (`Procs.RegisterWired`). A later firing is `Procs.Settle` applied to its result; callback chains and errbacks are not modelled.
- The security proxy, `Checker` and `AuditingPermissionDictionary` are not part of this model.
  - The check is a function over the tables. Auditing mode is taken to let undeclared names through, and it refuses declared ones like enforcing mode does.
  - Security.CheckWrite: the model keeps a separate write table, which differs from the program's shared dictionary. `Checker(perms, perms)` (security/grokkers.py:26) hands one dictionary to both reads and writes. There, `protect_getattr` stores the read permission under the same key. A write to a bare-declared name is therefore checked against its read permission. For a tuple, the later `protectName` action overwrites the write permission with the read one.
- zope.configuration conflict resolution between actions with the same discriminator is not modelled. A later action overrides an earlier one.
- argparse is not modelled: parsers are sequences of action groups of plain records. The `provideSubscriptionAdapter` registrations are left out.
- The namespace's dictionary-valued attributes that group-dict actions use are kept apart from the plain attributes.
- `os.path.dirname` and `os.path.join` are modelled for POSIX paths.

## Findings

| source | as written | input that shows it | evidently intended | confidence | as-written member | corrected member |
|---|---|---|---|---|---|---|
| opennode/oms/model/model/base.py:145-151 | the guard `principal.id != self.__owner__` reads the owner after the new role was assigned, so it is always false | a node owned by "alice" handed to "bob" | emit OwnerChanged(previous owner, new owner) whenever the owner changes | high, not executed | Models.SetOwnerAsWritten | Models.SetOwner |
| opennode/oms/model/model/base.py:359-362 | `rename(k, k)` stores the item under k, deletes k, then fails reading k | a container {"a": n}, rename("a", "a") | renaming to the same name keeps the entry | high, not executed | Containers.RenameAsWritten | Containers.Rename |
| opennode/oms/model/model/base.py:338-339 | an instance that neither declares nor provides the interface falls through to `implementedBy(instance)`, which raises TypeError for a non-factory, so `add` fails with TypeError instead of its "Can only contain" error | a container of `IFoo` things and a plain node | answer False, so that `add` reports the containment refusal | medium, not executed | Containers.CanContainAsWritten | Containers.CanContain |
| opennode/oms/model/model/base.py:346-357 | `ModelMovedEvent(item.__parent__, self)` is built after `_add` reset the parent, so old and new parent are both the target | an item in container 7 added to container 3 | the event names the container the item left | high, not executed | Containers.AddAsWritten | Containers.Add |

=== FILE: completion.dfy ===
/** Tab-completion rules of the shell, over argparse-like action records:
    command and type names, paths, `-switches`, `=key` switches and the
    values of `key=value` arguments. Comparisons follow Python 2. */
module Completion {
  import opened Results
  import opened Strings

  /** argparse `nargs`: None, an int, '?', or another pattern ('*', '+', ...). */
  datatype Nargs = NargsNone | NargsInt(n: nat) | NargsOptional | NargsPattern(pattern: string)

  /** The action classes the completers distinguish. */
  datatype ActionKind = StoreKind | CountKind | GroupDictKind(group: string)

  /** A parsed value as stored on the namespace. */
  datatype Value = VNone | VBool(b: bool) | VInt(i: int) | VStr(s: string) | VList(items: seq<Value>)

  datatype ArgAction = ArgAction(
    optionStrings: seq<string>,
    nargs: Nargs,
    defaultValue: Value,
    choices: seq<string>,     // empty when the action declares none
    dest: string,
    kind: ActionKind)

  /** A parser's action groups. */
  type Parser = seq<seq<ArgAction>>

  /** The parsed namespace: plain attributes, and the dictionaries that
      group-dict actions store their values in. */
  datatype Namespace = Namespace(attrs: map<string, Value>, groups: map<string, map<string, Value>>)

  /** One child of the container a path completes in. */
  datatype Child = Child(name: string, isContainer: bool)

  /** The parser's actions, group by group. */
  function Actions(parser: Parser): seq<ArgAction>
    decreases |parser|
  {
    if |parser| == 0 then [] else Actions(parser[..|parser| - 1]) + parser[|parser| - 1]
  }

  lemma ActionsSnoc(parser: Parser, g: nat)
    requires g < |parser|
    ensures Actions(parser[..g + 1]) == Actions(parser[..g]) + parser[g]
  {
    assert parser[..g + 1][..g] == parser[..g];
  }

  // ---------------------------------------------------------------- names

  /** The names that start with the token, in order. */
  function PrefixFilter(names: seq<string>, token: string): (r: seq<string>)
    ensures forall x :: x in r <==> x in names && StartsWith(x, token)
    ensures |r| <= |names|
    decreases |names|
  {
    if |names| == 0 then []
    else if StartsWith(names[0], token) then [names[0]] + PrefixFilter(names[1..], token)
    else PrefixFilter(names[1..], token)
  }

  /** Filtering keeps the order of the names and each occurrence: it works
      piecewise over a concatenation, and a single name is kept iff it matches. */
  lemma {:induction false} PrefixFilterAppend(a: seq<string>, b: seq<string>, token: string)
    ensures PrefixFilter(a + b, token) == PrefixFilter(a, token) + PrefixFilter(b, token)
    ensures PrefixFilter([], token) == []
    ensures forall x :: PrefixFilter([x], token) == if StartsWith(x, token) then [x] else []
    decreases |a|
  {
    if |a| > 0 {
      assert (a + b)[1..] == a[1..] + b;
      PrefixFilterAppend(a[1..], b, token);
    } else {
      assert a + b == b;
    }
    forall x ensures PrefixFilter([x], token) == if StartsWith(x, token) then [x] else [] {
      assert [x][1..] == [];
    }
  }

  /** `CommandCompleter.complete`: the known command names starting with the token. */
  function CompleteCommand(commands: seq<string>, token: string): (r: seq<string>)
    ensures forall x :: x in r <==> x in commands && StartsWith(x, token)
  {
    PrefixFilter(commands, token)
  }

  /** `ObjectTypeCompleter.complete`: the creatable type names starting with the token. */
  function CompleteObjectType(creatable: seq<string>, token: string): (r: seq<string>)
    ensures forall x :: x in r <==> x in creatable && StartsWith(x, token)
  {
    PrefixFilter(creatable, token)
  }

  // ---------------------------------------------------------------- positionals

  predicate Positional(a: ArgAction) {
    a.optionStrings == []
  }

  /** How many values were supplied for a positional: none when the parsed
      value is the default, the length of a list, one for anything else. */
  function Supplied(parsed: Namespace, a: ArgAction): nat {
    var values := if a.dest in parsed.attrs then parsed.attrs[a.dest] else VList([]);
    if values == a.defaultValue then 0
    else if values.VList? then |values.items|
    else 1
  }

  /** The number of values a positional accepts; None is unbounded. */
  function Capacity(n: Nargs): Option<nat> {
    match n
    case NargsNone => Some(1)
    case NargsInt(k) => Some(k)
    case NargsOptional => Some(1)
    case NargsPattern(_) => None
  }

  function AddCapacity(m: Option<nat>, n: Nargs): Option<nat> {
    if m.None? || Capacity(n).None? then None else Some(m.value + Capacity(n).value)
  }

  /** Values supplied over all positionals. */
  function TotalSupplied(parsed: Namespace, acts: seq<ArgAction>): nat
    decreases |acts|
  {
    if |acts| == 0 then 0
    else
      var last := acts[|acts| - 1];
      TotalSupplied(parsed, acts[..|acts| - 1]) + (if Positional(last) then Supplied(parsed, last) else 0)
  }

  /** Capacity over all positionals; unbounded once any is. */
  function TotalCapacity(acts: seq<ArgAction>): Option<nat>
    decreases |acts|
  {
    if |acts| == 0 then Some(0)
    else
      var last := acts[|acts| - 1];
      var before := TotalCapacity(acts[..|acts| - 1]);
      if Positional(last) then AddCapacity(before, last.nargs) else before
  }

  /** Whether the supplied positional values reach the maximum the
      positionals accept; never when one is unbounded. */
  predicate PositionalsConsumed(parsed: Namespace, parser: Parser) {
    var cap := TotalCapacity(Actions(parser));
    cap.Some? && TotalSupplied(parsed, Actions(parser)) >= cap.value
  }

  lemma TotalsSnoc(parsed: Namespace, xs: seq<ArgAction>, a: ArgAction)
    ensures TotalSupplied(parsed, xs + [a]) == TotalSupplied(parsed, xs) + (if Positional(a) then Supplied(parsed, a) else 0)
    ensures TotalCapacity(xs + [a]) == if Positional(a) then AddCapacity(TotalCapacity(xs), a.nargs) else TotalCapacity(xs)
  {
    assert (xs + [a])[..|xs|] == xs;
  }

  /** `PathCompleter.consumed`, walking the groups and their actions once. */
  method Consumed(parsed: Namespace, parser: Parser) returns (b: bool)
    ensures b <==> PositionalsConsumed(parsed, parser)
  {
    var maximum: Option<nat> := Some(0);
    var actual: nat := 0;
    var g := 0;
    while g < |parser|
      invariant 0 <= g <= |parser|
      invariant actual == TotalSupplied(parsed, Actions(parser[..g]))
      invariant maximum == TotalCapacity(Actions(parser[..g]))
    {
      var group := parser[g];
      var i := 0;
      assert Actions(parser[..g]) + group[..0] == Actions(parser[..g]);
      while i < |group|
        invariant 0 <= i <= |group|
        invariant actual == TotalSupplied(parsed, Actions(parser[..g]) + group[..i])
        invariant maximum == TotalCapacity(Actions(parser[..g]) + group[..i])
      {
        var a := group[i];
        assert Actions(parser[..g]) + group[..i + 1] == (Actions(parser[..g]) + group[..i]) + [a];
        TotalsSnoc(parsed, Actions(parser[..g]) + group[..i], a);
        if a.optionStrings == [] {
          actual := actual + Supplied(parsed, a);
          maximum := AddCapacity(maximum, a.nargs);
        }
        i := i + 1;
      }
      assert group[..i] == group;
      ActionsSnoc(parser, g);
      g := g + 1;
    }
    assert parser[..g] == parser;
    b := maximum.Some? && actual >= maximum.value;
  }

  /** With nothing parsed the positionals count as consumed exactly when they
      accept no values at all. */
  lemma NothingParsedConsumed(parser: Parser)
    ensures PositionalsConsumed(Namespace(map[], map[]), parser) <==> TotalCapacity(Actions(parser)) == Some(0)
  {
    NothingSupplied(Actions(parser));
  }

  /** The capacity is unbounded exactly when some positional takes a pattern
      other than '?'; then the positionals are never consumed. */
  lemma {:induction false} UnboundedCapacity(acts: seq<ArgAction>)
    ensures TotalCapacity(acts).None? <==> exists i :: 0 <= i < |acts| && Positional(acts[i]) && acts[i].nargs.NargsPattern?
    decreases |acts|
  {
    if |acts| > 0 {
      var init := acts[..|acts| - 1];
      UnboundedCapacity(init);
      if exists i :: 0 <= i < |acts| && Positional(acts[i]) && acts[i].nargs.NargsPattern? {
        var i :| 0 <= i < |acts| && Positional(acts[i]) && acts[i].nargs.NargsPattern?;
        if i < |acts| - 1 {
          assert init[i] == acts[i];
        }
      }
      if exists i :: 0 <= i < |init| && Positional(init[i]) && init[i].nargs.NargsPattern? {
        var i :| 0 <= i < |init| && Positional(init[i]) && init[i].nargs.NargsPattern?;
        assert acts[i] == init[i];
      }
    }
  }

  /** An empty namespace supplies no positional values: a missing attribute
      reads as the empty list. */
  lemma {:induction false} NothingSupplied(acts: seq<ArgAction>)
    ensures TotalSupplied(Namespace(map[], map[]), acts) == 0
    decreases |acts|
  {
    if |acts| > 0 {
      NothingSupplied(acts[..|acts| - 1]);
      var last := acts[|acts| - 1];
      if Positional(last) && VList([]) != last.defaultValue {
        assert Supplied(Namespace(map[], map[]), last) == |VList([]).items|;
      }
    }
  }

  // ---------------------------------------------------------------- paths

  function LastSlashEnd(p: string): (i: nat)
    ensures i <= |p|
    ensures i > 0 ==> p[i - 1] == '/'
    ensures forall j :: i <= j < |p| ==> p[j] != '/'
    decreases |p|
  {
    if |p| == 0 then 0
    else if p[|p| - 1] == '/' then |p|
    else LastSlashEnd(p[..|p| - 1])
  }

  predicate AllSlashes(s: string) {
    forall j :: 0 <= j < |s| ==> s[j] == '/'
  }

  function StripTrailingSlashes(s: string): (r: string)
    ensures r <= s
    decreases |s|
  {
    if |s| > 0 && s[|s| - 1] == '/' then StripTrailingSlashes(s[..|s| - 1]) else s
  }

  /** `os.path.dirname`: everything up to the last slash, with trailing
      slashes removed unless it is all slashes. */
  function Dirname(p: string): (r: string)
    ensures r <= p
  {
    var head := p[..LastSlashEnd(p)];
    if head != "" && !AllSlashes(head) then StripTrailingSlashes(head) else head
  }

  /** `os.path.join` of two components. */
  function Join(a: string, b: string): (r: string)
    ensures |r| >= |b| && r[|r| - |b|..] == b
  {
    if StartsWith(b, "/") then b
    else if a == "" || a[|a| - 1] == '/' then a + b
    else a + "/" + b
  }

  /** How a matching child is offered: its joined path, with '/' for a container. */
  function Render(base: string, c: Child): string {
    Join(base, c.name) + (if c.isContainer then "/" else "")
  }

  function KeptChildren(children: seq<Child>, base: string, token: string): (r: seq<Child>)
    ensures forall c :: c in r <==> c in children && StartsWith(Join(base, c.name), token)
    decreases |children|
  {
    if |children| == 0 then []
    else if StartsWith(Join(base, children[0].name), token) then [children[0]] + KeptChildren(children[1..], base, token)
    else KeptChildren(children[1..], base, token)
  }

  /** `PathCompleter.complete`: nothing once the positionals are consumed or
      when the token's directory is not a container; otherwise each child
      whose joined path starts with the token, rendered. `traverse` stands
      for walking from the command's current object. */
  method CompletePath(token: string, parsed: Namespace, parser: Parser, traverse: string -> Option<seq<Child>>)
    returns (r: seq<string>)
    ensures forall i :: 0 <= i < |r| ==> StartsWith(r[i], token)
    ensures PositionalsConsumed(parsed, parser) || traverse(Dirname(token)).None? ==> r == []
    ensures var listing := traverse(Dirname(token));
            !PositionalsConsumed(parsed, parser) && listing.Some? ==>
              var kept := KeptChildren(listing.value, Dirname(token), token);
              |r| == |kept| && forall i :: 0 <= i < |r| ==> r[i] == Render(Dirname(token), kept[i])
  {
    var consumed := Consumed(parsed, parser);
    r := [];
    if !consumed {
      var base := Dirname(token);
      var listing := traverse(base);
      if listing.Some? {
        var kept := KeptChildren(listing.value, base, token);
        r := seq(|kept|, i requires 0 <= i < |kept| => Render(base, kept[i]));
        forall i | 0 <= i < |r| ensures StartsWith(r[i], token) {
          assert kept[i] in kept;
          assert StartsWith(Join(base, kept[i].name), token);
        }
      }
    }
  }

  /** A completed path ends in '/' exactly when its child is a container,
      for child names that are non-empty and carry no trailing slash. */
  lemma RenderMarksContainers(base: string, c: Child)
    requires c.name != "" && c.name[|c.name| - 1] != '/'
    ensures var s := Render(base, c); |s| > 0 && (s[|s| - 1] == '/' <==> c.isContainer)
  {
    var j := Join(base, c.name);
    assert j[|j| - 1] == j[|j| - |c.name|..][|c.name| - 1];
  }

  // ---------------------------------------------------------------- switches

  /** Python 2's `nargs > 0`: None is below every number, a string above. */
  predicate NargsAboveZero(n: Nargs) {
    match n
    case NargsNone => false
    case NargsInt(k) => k > 0
    case NargsOptional => true
    case NargsPattern(_) => true
  }

  /** The value the namespace holds for an action, its default when absent. */
  function ParsedValue(a: ArgAction, parsed: Namespace): Value {
    match a.kind
    case GroupDictKind(g) =>
      var group := if g in parsed.groups then parsed.groups[g] else map[];
      if a.dest in group then group[a.dest] else a.defaultValue
    case _ => if a.dest in parsed.attrs then parsed.attrs[a.dest] else a.defaultValue
  }

  /** `ArgSwitchCompleter.option_consumed`: value-taking and count actions can
      repeat; any other is consumed once its value differs from the default. */
  function OptionConsumed(a: ArgAction, parsed: Namespace): (r: bool)
    ensures a.kind.CountKind? ==> !r
    ensures (a.nargs == NargsNone || a.nargs == NargsInt(0)) && !a.kind.CountKind? ==>
              (r <==> ParsedValue(a, parsed) != a.defaultValue)
    ensures NargsAboveZero(a.nargs) ==> !r
  {
    if NargsAboveZero(a.nargs) || a.kind.CountKind? then false
    else ParsedValue(a, parsed) != a.defaultValue
  }

  /** The option strings, over all actions, that satisfy `keep` and whose
      action is not consumed. */
  function OfferedOptions(acts: seq<ArgAction>, parsed: Namespace, prefix: string): (r: seq<string>)
    ensures forall o :: o in r <==> exists i :: 0 <= i < |acts| && o in acts[i].optionStrings
                                             && StartsWith(o, prefix) && !OptionConsumed(acts[i], parsed)
    decreases |acts|
  {
    if |acts| == 0 then []
    else
      var here := if OptionConsumed(acts[0], parsed) then [] else PrefixFilter(acts[0].optionStrings, prefix);
      var rest := OfferedOptions(acts[1..], parsed, prefix);
      assert forall o :: o in rest <==> exists i :: 1 <= i < |acts| && o in acts[i].optionStrings
                                                && StartsWith(o, prefix) && !OptionConsumed(acts[i], parsed) by {
        forall o ensures o in rest <==> exists i :: 1 <= i < |acts| && o in acts[i].optionStrings
                                                && StartsWith(o, prefix) && !OptionConsumed(acts[i], parsed) {
          if o in rest {
            var i :| 0 <= i < |acts[1..]| && o in acts[1..][i].optionStrings
                     && StartsWith(o, prefix) && !OptionConsumed(acts[1..][i], parsed);
            assert acts[i + 1] == acts[1..][i];
          }
          if exists i :: 1 <= i < |acts| && o in acts[i].optionStrings && StartsWith(o, prefix) && !OptionConsumed(acts[i], parsed) {
            var i :| 1 <= i < |acts| && o in acts[i].optionStrings && StartsWith(o, prefix) && !OptionConsumed(acts[i], parsed);
            assert acts[1..][i - 1] == acts[i];
          }
        }
      }
      here + rest
  }

  /** Options are offered action by action, in parser order, each action's
      matching option strings in declaration order; a string declared by two
      unconsumed actions is offered twice. */
  lemma {:induction false} OfferedOptionsAppend(a: seq<ArgAction>, b: seq<ArgAction>, parsed: Namespace, prefix: string)
    ensures OfferedOptions(a + b, parsed, prefix) == OfferedOptions(a, parsed, prefix) + OfferedOptions(b, parsed, prefix)
    ensures forall x :: OfferedOptions([x], parsed, prefix) ==
                          if OptionConsumed(x, parsed) then [] else PrefixFilter(x.optionStrings, prefix)
    decreases |a|
  {
    if |a| > 0 {
      assert (a + b)[1..] == a[1..] + b;
      OfferedOptionsAppend(a[1..], b, parsed, prefix);
    } else {
      assert a + b == b;
    }
    forall x ensures OfferedOptions([x], parsed, prefix) ==
                       if OptionConsumed(x, parsed) then [] else PrefixFilter(x.optionStrings, prefix) {
      assert [x][1..] == [];
    }
  }

  /** `ArgSwitchCompleter.complete`: nothing for a token without a leading
      '-'; otherwise the option strings of the command's partial parser that
      start with the token and whose action is not consumed. */
  function CompleteSwitch(token: string, parsed: Namespace, partialParser: Parser): (r: seq<string>)
    ensures !StartsWith(token, "-") ==> r == []
    ensures StartsWith(token, "-") ==> r == OfferedOptions(Actions(partialParser), parsed, token)
    ensures StartsWith(token, "-") ==>
              forall o :: o in r <==> exists a :: a in Actions(partialParser) && o in a.optionStrings
                                                 && StartsWith(o, token) && !OptionConsumed(a, parsed)
  {
    if StartsWith(token, "-") then
      var acts := Actions(partialParser);
      var r := OfferedOptions(acts, parsed, token);
      assert forall a :: a in acts <==> exists i :: 0 <= i < |acts| && acts[i] == a;
      r
    else []
  }

  /** Each option `=k` turned into the suggestion `k=`, in order. */
  function KeywordSuggestions(options: seq<string>): (r: seq<string>)
    requires forall o :: o in options ==> |o| > 0
    ensures |r| == |options| && forall i :: 0 <= i < |r| ==> r[i] == options[i][1..] + "="
    ensures forall s :: s in r <==> exists o :: o in options && s == o[1..] + "="
    decreases |options|
  {
    if |options| == 0 then []
    else
      var rest := KeywordSuggestions(options[1..]);
      assert forall o :: o in options <==> o == options[0] || o in options[1..];
      [options[0][1..] + "="] + rest
  }

  /** `KeywordSwitchCompleter.complete`: every unconsumed option `=k` starting
      with `=` + token is offered as `k=`, in the order and with the repeats
      of the offered options. */
  function CompleteKeywordSwitch(token: string, parsed: Namespace, parser: Parser): (r: seq<string>)
    ensures forall s :: s in r <==> exists o :: o in OfferedOptions(Actions(parser), parsed, "=" + token) && s == o[1..] + "="
    ensures var o := OfferedOptions(Actions(parser), parsed, "=" + token);
            |r| == |o| && forall i :: 0 <= i < |r| ==> |o[i]| > 0 && r[i] == o[i][1..] + "="
  {
    var offered := OfferedOptions(Actions(parser), parsed, "=" + token);
    assert forall o :: o in offered ==> StartsWith(o, "=" + token);
    KeywordSuggestions(offered)
  }

  /** Each keyword-switch completion is `k=` for a switch `=k` of the parser,
      with `k` starting with the token. */
  lemma KeywordSwitchShape(token: string, parsed: Namespace, parser: Parser, s: string)
    requires s in CompleteKeywordSwitch(token, parsed, parser)
    ensures |s| > 0 && s[|s| - 1] == '='
    ensures StartsWith(s[..|s| - 1], token)
    ensures exists a :: a in Actions(parser) && "=" + s[..|s| - 1] in a.optionStrings && !OptionConsumed(a, parsed)
  {
    var acts := Actions(parser);
    var o :| o in OfferedOptions(acts, parsed, "=" + token) && s == o[1..] + "=";
    var i :| 0 <= i < |acts| && o in acts[i].optionStrings && StartsWith(o, "=" + token) && !OptionConsumed(acts[i], parsed);
    assert s[..|s| - 1] == o[1..];
    assert o == "=" + o[1..];
    assert acts[i] in acts;
  }

  // ---------------------------------------------------------------- keyword values

  function CountChar(s: string, c: char): nat
    decreases |s|
  {
    if |s| == 0 then 0 else (if s[0] == c then 1 else 0) + CountChar(s[1..], c)
  }

  /** The position of the first `c` in `s`. */
  function IndexOf(s: string, c: char): (i: nat)
    requires CountChar(s, c) > 0
    ensures i < |s| && s[i] == c
    ensures forall j :: 0 <= j < i ==> s[j] != c
    ensures CountChar(s, c) == 1 ==> forall j :: i < j < |s| ==> s[j] != c
    decreases |s|
  {
    if s[0] == c then
      assert CountChar(s, c) == 1 + CountChar(s[1..], c);
      if CountChar(s, c) == 1 then NoOccurrence(s[1..], c); 0 else 0
    else 1 + IndexOf(s[1..], c)
  }

  lemma {:induction false} NoOccurrence(s: string, c: char)
    requires CountChar(s, c) == 0
    ensures forall j :: 0 <= j < |s| ==> s[j] != c
    decreases |s|
  {
    if |s| > 0 {
      NoOccurrence(s[1..], c);
      assert forall j :: 1 <= j < |s| ==> s[j] == s[1..][j - 1];
    }
  }

  /** `KeywordValueCompleter.find_action`: the first action storing into `keyword`. */
  function FindAction(keyword: string, acts: seq<ArgAction>): (r: Option<ArgAction>)
    ensures r.None? <==> forall i :: 0 <= i < |acts| ==> acts[i].dest != keyword
    ensures r.Some? ==> exists i :: 0 <= i < |acts| && acts[i] == r.value && r.value.dest == keyword
                                    && forall j :: 0 <= j < i ==> acts[j].dest != keyword
    decreases |acts|
  {
    if |acts| == 0 then None
    else if acts[0].dest == keyword then Some(acts[0])
    else
      var r := FindAction(keyword, acts[1..]);
      if r.Some? then
        var i :| 0 <= i < |acts[1..]| && acts[1..][i] == r.value && r.value.dest == keyword
                 && forall j :: 0 <= j < i ==> acts[1..][j].dest != keyword;
        assert acts[i + 1] == r.value;
        assert forall j :: 1 <= j < i + 1 ==> acts[j] == acts[1..][j - 1];
        r
      else
        assert forall j :: 1 <= j < |acts| ==> acts[j] == acts[1..][j - 1];
        r
  }

  /** `KeywordValueCompleter.complete`: nothing for a token without '=';
      `token.split('=')` fails to unpack with two or more; otherwise
      `keyword=c` for each declared choice `c` starting with the value part,
      and an action lookup that finds nothing fails on `.choices`. */
  function CompleteKeywordValue(token: string, parsed: Namespace, parser: Parser): (r: Result<seq<string>>)
    ensures CountChar(token, '=') == 0 ==> r == Ok([])
    ensures CountChar(token, '=') > 1 ==> r == Err(ValueError)
    ensures CountChar(token, '=') == 1 ==>
              var i := IndexOf(token, '=');
              var keyword := token[..i];
              var prefix := token[i + 1..];
              match FindAction(keyword, Actions(parser))
              case None => r == Err(AttributeError("choices"))
              case Some(a) =>
                && r.Ok?
                && (forall s :: s in r.value <==> exists v :: v in a.choices && StartsWith(v, prefix) && s == keyword + "=" + v)
                && |r.value| == |PrefixFilter(a.choices, prefix)|
                && forall j :: 0 <= j < |r.value| ==> r.value[j] == keyword + "=" + PrefixFilter(a.choices, prefix)[j]
  {
    var n := CountChar(token, '=');
    if n == 0 then Ok([])
    else if n > 1 then Err(ValueError)
    else
      var i := IndexOf(token, '=');
      var keyword := token[..i];
      var prefix := token[i + 1..];
      match FindAction(keyword, Actions(parser))
      case None => Err(AttributeError("choices"))
      case Some(a) =>
        if |a.choices| == 0 then Ok([])
        else
          var kept := PrefixFilter(a.choices, prefix);
          var out := seq(|kept|, j requires 0 <= j < |kept| => keyword + "=" + kept[j]);
          forall s | s in out ensures exists v :: v in a.choices && StartsWith(v, prefix) && s == keyword + "=" + v {
            var j :| 0 <= j < |out| && out[j] == s;
            assert kept[j] in kept;
          }
          forall v | v in a.choices && StartsWith(v, prefix) ensures keyword + "=" + v in out {
            assert v in kept;
            var j :| 0 <= j < |kept| && kept[j] == v;
            assert out[j] == keyword + "=" + v;
          }
          Ok(out)
  }

  lemma PrefixUnderSamePrefix(a: string, p: string, v: string)
    requires StartsWith(v, p)
    ensures StartsWith(a + v, a + p)
  {
    assert (a + v)[..|a + p|] == a + v[..|p|];
  }

  /** Every keyword-value completion extends the token it completes. */
  lemma KeywordValueExtendsToken(token: string, parsed: Namespace, parser: Parser)
    requires CompleteKeywordValue(token, parsed, parser).Ok?
    ensures forall s :: s in CompleteKeywordValue(token, parsed, parser).value ==> StartsWith(s, token)
  {
    if CountChar(token, '=') == 1 {
      var i := IndexOf(token, '=');
      var keyword := token[..i];
      var prefix := token[i + 1..];
      assert token == keyword + "=" + prefix;
      var a := FindAction(keyword, Actions(parser)).value;
      forall s | s in CompleteKeywordValue(token, parsed, parser).value ensures StartsWith(s, token) {
        var v :| v in a.choices && StartsWith(v, prefix) && s == keyword + "=" + v;
        PrefixUnderSamePrefix(keyword + "=", prefix, v);
      }
    }
  }
}

=== FILE: containers.dfy ===
/** Containers of the object tree: the composition of a container's visible
    children from persisted items, injectors and extenders, and the write
    operations `add`, `_add`, `rename`, `remove` and `__delitem__`. */
module Containers {
  import opened Results
  import opened Models

  /** zope's base `Interface`, provided by every object. */
  const BaseInterface: string := "Interface"

  /** A container's `__contains__`: an interface, or a class for isinstance. */
  datatype Containment = ByInterface(iface: string) | ByClass(cls: string)

  /** `ReadonlyContainer` (no write operations), or `Container` with its `__contains__`. */
  datatype Kind = Readonly | Writable(contains: Containment)

  /** `__contains__` of the base `Container` class. */
  const DefaultContainment: Containment := ByInterface(BaseInterface)

  /** A container: its identity, its kind, the interfaces it provides and its
      persisted `_items`. */
  datatype Container = Container(oid: Oid, kind: Kind, interfaces: set<string>, items: map<string, Node>)

  /** An injector or extender: its `__interfaces__` filter and the mapping its
      `inject()` or `extend()` returns. */
  datatype Provider = Provider(filter: set<string>, entries: map<string, Node>)

  /** The result of `content()`: the container with its persisted items after
      injection, and the mapping returned to the caller. */
  datatype Composition = Composition(container: Container, visible: map<string, Node>)

  /** Every container of the tree, by identity. */
  type Tree = map<Oid, Container>

  predicate Provides(c: Container, iface: string) {
    iface == BaseInterface || iface in c.interfaces
  }

  /** A provider is consulted when its filter is empty or names an interface the container provides. */
  predicate Applies(p: Provider, c: Container) {
    p.filter == {} || exists i :: i in p.filter && Provides(c, i)
  }

  function Applicable(c: Container, ps: seq<Provider>): (r: seq<Provider>)
    ensures forall i :: 0 <= i < |r| ==> Applies(r[i], c)
    decreases |ps|
  {
    if |ps| == 0 then []
    else if Applies(ps[0], c) then [ps[0]] + Applicable(c, ps[1..])
    else Applicable(c, ps[1..])
  }

  /** Injected models get the container as parent. */
  function Adopted(entries: map<string, Node>, cid: Oid): map<string, Node> {
    map k | k in entries :: entries[k].(parent := Some(cid))
  }

  /** Extended models get the container as parent and become transient and permission-inheriting. */
  function Transients(entries: map<string, Node>, cid: Oid): map<string, Node> {
    map k | k in entries :: entries[k].(parent := Some(cid), transient := true, inheritFlag := true)
  }

  // ---------------------------------------------------------------- the two passes

  /** The injection pass, provider by provider: a name is stored only when it
      is not already among the items. */
  function InjectPass(c: Container, items: map<string, Node>, injectors: seq<Provider>): map<string, Node>
    decreases |injectors|
  {
    if |injectors| == 0 then items
    else
      var p := injectors[0];
      var items' :=
        if Applies(p, c) then items + (Adopted(p.entries, c.oid) - items.Keys) else items;
      InjectPass(c, items', injectors[1..])
  }

  /** The extension pass, provider by provider: each extender's children
      overwrite what is there. */
  function ExtendPass(c: Container, items: map<string, Node>, extenders: seq<Provider>): map<string, Node>
    decreases |extenders|
  {
    if |extenders| == 0 then items
    else
      var p := extenders[0];
      var items' := if Applies(p, c) then items + Transients(p.entries, c.oid) else items;
      ExtendPass(c, items', extenders[1..])
  }

  /** Reference: the union of the applicable injectors' mappings in which the
      first injector proposing a name wins. */
  function FirstWins(c: Container, ps: seq<Provider>): map<string, Node>
    decreases |ps|
  {
    if |ps| == 0 then map[]
    else FirstWins(c, ps[1..]) + (if Applies(ps[0], c) then Adopted(ps[0].entries, c.oid) else map[])
  }

  /** Reference: the union of the applicable extenders' mappings in which the
      last extender proposing a name wins. */
  function LastWins(c: Container, ps: seq<Provider>): map<string, Node>
    decreases |ps|
  {
    if |ps| == 0 then map[]
    else (if Applies(ps[0], c) then Transients(ps[0].entries, c.oid) else map[]) + LastWins(c, ps[1..])
  }

  lemma InjectStep<V>(f: map<string, V>, a: map<string, V>, items: map<string, V>)
    ensures f + (items + (a - items.Keys)) == (f + a) + items
  {
    var lhs := f + (items + (a - items.Keys));
    var rhs := (f + a) + items;
    assert lhs.Keys == rhs.Keys;
    forall k | k in lhs ensures lhs[k] == rhs[k] {
    }
  }

  lemma OverlayAssociative<V>(a: map<string, V>, b: map<string, V>, c: map<string, V>)
    ensures (a + b) + c == a + (b + c)
  {
    assert ((a + b) + c).Keys == (a + (b + c)).Keys;
  }

  lemma {:induction false} InjectPassIsFirstWins(c: Container, items: map<string, Node>, ps: seq<Provider>)
    ensures InjectPass(c, items, ps) == FirstWins(c, ps) + items
    decreases |ps|
  {
    if |ps| > 0 {
      var p := ps[0];
      if Applies(p, c) {
        var a := Adopted(p.entries, c.oid);
        InjectPassIsFirstWins(c, items + (a - items.Keys), ps[1..]);
        InjectStep(FirstWins(c, ps[1..]), a, items);
      } else {
        InjectPassIsFirstWins(c, items, ps[1..]);
        assert FirstWins(c, ps) == FirstWins(c, ps[1..]) + map[];
      }
    }
  }

  lemma {:induction false} ExtendPassIsLastWins(c: Container, items: map<string, Node>, ps: seq<Provider>)
    ensures ExtendPass(c, items, ps) == items + LastWins(c, ps)
    decreases |ps|
  {
    if |ps| > 0 {
      var p := ps[0];
      if Applies(p, c) {
        var t := Transients(p.entries, c.oid);
        ExtendPassIsLastWins(c, items + t, ps[1..]);
        OverlayAssociative(items, t, LastWins(c, ps[1..]));
      } else {
        ExtendPassIsLastWins(c, items, ps[1..]);
        assert LastWins(c, ps) == map[] + LastWins(c, ps[1..]);
        assert items + LastWins(c, ps[1..]) == items + (map[] + LastWins(c, ps[1..]));
      }
    }
  }

  /** `ReadonlyContainer.content()`: the injection pass changes the persisted
      items to the first-wins union of the injectors under the items already
      there; the caller sees those items overlaid with the last-wins union of
      the extenders. */
  function Content(c: Container, injectors: seq<Provider>, extenders: seq<Provider>): (r: Composition)
    ensures r.container == c.(items := FirstWins(c, injectors) + c.items)
    ensures r.visible == r.container.items + LastWins(c, extenders)
  {
    var persisted := InjectPass(c, c.items, injectors);
    InjectPassIsFirstWins(c, c.items, injectors);
    ExtendPassIsLastWins(c, persisted, extenders);
    Composition(c.(items := persisted), ExtendPass(c, persisted, extenders))
  }

  // ---------------------------------------------------------------- properties of the reference unions

  /** A name is in the first-wins union only when an applicable injector proposes it. */
  lemma {:induction false} FirstWinsDomain(c: Container, ps: seq<Provider>, k: string)
    ensures k in FirstWins(c, ps) ==> exists i :: 0 <= i < |ps| && Applies(ps[i], c) && k in ps[i].entries
    decreases |ps|
  {
    if |ps| > 0 && k in FirstWins(c, ps) {
      if !(Applies(ps[0], c) && k in ps[0].entries) {
        FirstWinsDomain(c, ps[1..], k);
        var i :| 0 <= i < |ps[1..]| && Applies(ps[1..][i], c) && k in ps[1..][i].entries;
        assert ps[1..][i] == ps[i + 1];
      }
    }
  }

  /** The first applicable injector proposing a name supplies its model, adopted. */
  lemma {:induction false} FirstWinsValue(c: Container, ps: seq<Provider>, k: string, i: nat)
    requires i < |ps| && Applies(ps[i], c) && k in ps[i].entries
    requires forall j :: 0 <= j < i && Applies(ps[j], c) ==> k !in ps[j].entries
    ensures k in FirstWins(c, ps) && FirstWins(c, ps)[k] == ps[i].entries[k].(parent := Some(c.oid))
    decreases |ps|
  {
    if i > 0 {
      forall j | 0 <= j < i - 1 && Applies(ps[1..][j], c) ensures k !in ps[1..][j].entries {
        assert ps[1..][j] == ps[j + 1];
      }
      assert ps[1..][i - 1] == ps[i];
      FirstWinsValue(c, ps[1..], k, i - 1);
    }
  }

  /** A name is in the first-wins union iff an applicable injector proposes
      it, and then it holds the first such injector's model, adopted. */
  lemma FirstWinsPicksFirst(c: Container, ps: seq<Provider>, k: string)
    ensures k in FirstWins(c, ps) <==> exists i :: 0 <= i < |ps| && Applies(ps[i], c) && k in ps[i].entries
    ensures forall i :: 0 <= i < |ps| && Applies(ps[i], c) && k in ps[i].entries
                        && (forall j :: 0 <= j < i && Applies(ps[j], c) ==> k !in ps[j].entries)
                        ==> FirstWins(c, ps)[k] == ps[i].entries[k].(parent := Some(c.oid))
  {
    FirstWinsDomain(c, ps, k);
    if exists i :: 0 <= i < |ps| && Applies(ps[i], c) && k in ps[i].entries {
      FirstInjector(c, ps, k);
      var i :| 0 <= i < |ps| && Applies(ps[i], c) && k in ps[i].entries
               && forall j :: 0 <= j < i && Applies(ps[j], c) ==> k !in ps[j].entries;
      FirstWinsValue(c, ps, k, i);
    }
    forall i | 0 <= i < |ps| && Applies(ps[i], c) && k in ps[i].entries
               && (forall j :: 0 <= j < i && Applies(ps[j], c) ==> k !in ps[j].entries)
      ensures FirstWins(c, ps)[k] == ps[i].entries[k].(parent := Some(c.oid))
    {
      FirstWinsValue(c, ps, k, i);
    }
  }

  /** A name is in the last-wins union iff an applicable extender proposes it,
      and then it holds the last such extender's model, made transient. */
  lemma {:induction false} LastWinsPicksLast(c: Container, ps: seq<Provider>, k: string)
    ensures k in LastWins(c, ps) <==> exists i :: 0 <= i < |ps| && Applies(ps[i], c) && k in ps[i].entries
    ensures forall i :: 0 <= i < |ps| && Applies(ps[i], c) && k in ps[i].entries
                        && (forall j :: i < j < |ps| && Applies(ps[j], c) ==> k !in ps[j].entries)
                        ==> LastWins(c, ps)[k] == ps[i].entries[k].(parent := Some(c.oid), transient := true, inheritFlag := true)
    decreases |ps|
  {
    if |ps| > 0 {
      LastWinsPicksLast(c, ps[1..], k);
      if exists i :: 0 <= i < |ps| && Applies(ps[i], c) && k in ps[i].entries {
        var i :| 0 <= i < |ps| && Applies(ps[i], c) && k in ps[i].entries;
        if i > 0 {
          assert ps[1..][i - 1] == ps[i];
        }
      }
      forall i | 0 <= i < |ps| && Applies(ps[i], c) && k in ps[i].entries
                 && (forall j :: i < j < |ps| && Applies(ps[j], c) ==> k !in ps[j].entries)
        ensures LastWins(c, ps)[k] == ps[i].entries[k].(parent := Some(c.oid), transient := true, inheritFlag := true)
      {
        if i > 0 {
          assert ps[1..][i - 1] == ps[i];
          forall j | i - 1 < j < |ps[1..]| && Applies(ps[1..][j], c) ensures k !in ps[1..][j].entries {
            assert ps[1..][j] == ps[j + 1];
          }
        }
      }
    }
  }

  /** Every child an extender supplies comes back with the container as
      parent, transient, and reading true for `inherit_permissions`. */
  lemma {:induction false} ExtendedChildrenAreTransient(c: Container, ps: seq<Provider>)
    ensures forall k :: k in LastWins(c, ps) ==>
              LastWins(c, ps)[k].parent == Some(c.oid) && LastWins(c, ps)[k].transient
              && InheritPermissions(LastWins(c, ps)[k])
    decreases |ps|
  {
    if |ps| > 0 {
      ExtendedChildrenAreTransient(c, ps[1..]);
    }
  }

  /** Providers whose filter the container does not match contribute nothing. */
  lemma {:induction false} FirstWinsIgnoresUnmatched(c: Container, ps: seq<Provider>)
    ensures FirstWins(c, ps) == FirstWins(c, Applicable(c, ps))
    decreases |ps|
  {
    if |ps| > 0 {
      FirstWinsIgnoresUnmatched(c, ps[1..]);
      if Applies(ps[0], c) {
        assert ([ps[0]] + Applicable(c, ps[1..]))[1..] == Applicable(c, ps[1..]);
      } else {
        assert FirstWins(c, ps) == FirstWins(c, ps[1..]) + map[];
      }
    }
  }

  lemma {:induction false} LastWinsIgnoresUnmatched(c: Container, ps: seq<Provider>)
    ensures LastWins(c, ps) == LastWins(c, Applicable(c, ps))
    decreases |ps|
  {
    if |ps| > 0 {
      LastWinsIgnoresUnmatched(c, ps[1..]);
      if Applies(ps[0], c) {
        assert ([ps[0]] + Applicable(c, ps[1..]))[1..] == Applicable(c, ps[1..]);
      } else {
        assert LastWins(c, ps) == map[] + LastWins(c, ps[1..]);
      }
    }
  }

  lemma {:induction false} ApplicableAppend(c: Container, a: seq<Provider>, b: seq<Provider>)
    ensures Applicable(c, a + b) == Applicable(c, a) + Applicable(c, b)
    decreases |a|
  {
    if |a| == 0 {
      assert a + b == b;
    } else {
      assert (a + b)[1..] == a[1..] + b;
      ApplicableAppend(c, a[1..], b);
    }
  }

  /** Inserting a provider that does not apply anywhere leaves the applicable ones unchanged. */
  lemma ApplicableSkipsInserted(c: Container, ps: seq<Provider>, p: Provider, i: nat)
    requires !Applies(p, c) && i <= |ps|
    ensures Applicable(c, ps[..i] + [p] + ps[i..]) == Applicable(c, ps)
  {
    var pre, post := ps[..i], ps[i..];
    assert Applicable(c, [p]) == [] by {
      assert [p][1..] == [];
    }
    calc {
      Applicable(c, pre + [p] + post);
    == { ApplicableAppend(c, pre + [p], post); }
      Applicable(c, pre + [p]) + Applicable(c, post);
    == { ApplicableAppend(c, pre, [p]); }
      Applicable(c, pre) + Applicable(c, post);
    == { ApplicableAppend(c, pre, post); }
      Applicable(c, pre + post);
    == { assert pre + post == ps; }
      Applicable(c, ps);
    }
  }

  /** An injector whose non-empty filter matches none of the container's
      interfaces, inserted anywhere, changes neither the persisted items nor
      the visible children. */
  lemma UnmatchedInjectorIsInert(c: Container, injectors: seq<Provider>, extenders: seq<Provider>, p: Provider, i: nat)
    requires p.filter != {} && forall f :: f in p.filter ==> !Provides(c, f)
    requires i <= |injectors|
    ensures Content(c, injectors[..i] + [p] + injectors[i..], extenders) == Content(c, injectors, extenders)
  {
    ApplicableSkipsInserted(c, injectors, p, i);
    FirstWinsIgnoresUnmatched(c, injectors[..i] + [p] + injectors[i..]);
    FirstWinsIgnoresUnmatched(c, injectors);
  }

  /** The same for an extender. */
  lemma UnmatchedExtenderIsInert(c: Container, injectors: seq<Provider>, extenders: seq<Provider>, p: Provider, j: nat)
    requires p.filter != {} && forall f :: f in p.filter ==> !Provides(c, f)
    requires j <= |extenders|
    ensures Content(c, injectors, extenders[..j] + [p] + extenders[j..]) == Content(c, injectors, extenders)
  {
    ApplicableSkipsInserted(c, extenders, p, j);
    LastWinsIgnoresUnmatched(c, extenders[..j] + [p] + extenders[j..]);
    LastWinsIgnoresUnmatched(c, extenders);
  }

  // ---------------------------------------------------------------- properties of content()

  /** After `content()` the persisted items are the old items plus exactly the
      injected names that were absent, each with the container as parent;
      nothing an extender returns is persisted. */
  lemma ContentPersistence(c: Container, injectors: seq<Provider>, extenders: seq<Provider>, other: seq<Provider>)
    ensures var after := Content(c, injectors, extenders).container.items;
            && (forall k :: k in c.items ==> k in after && after[k] == c.items[k])
            && (forall k :: k in after && k !in c.items ==>
                  after[k].parent == Some(c.oid)
                  && exists i :: 0 <= i < |injectors| && Applies(injectors[i], c) && k in injectors[i].entries)
            && (forall i, k :: 0 <= i < |injectors| && Applies(injectors[i], c) && k in injectors[i].entries ==> k in after)
    ensures Content(c, injectors, other).container == Content(c, injectors, extenders).container
  {
    var after := Content(c, injectors, extenders).container.items;
    forall k | k in after && k !in c.items
      ensures after[k].parent == Some(c.oid)
      ensures exists i :: 0 <= i < |injectors| && Applies(injectors[i], c) && k in injectors[i].entries
    {
      FirstWinsPicksFirst(c, injectors, k);
      var i :| 0 <= i < |injectors| && Applies(injectors[i], c) && k in injectors[i].entries
               && forall j :: 0 <= j < i && Applies(injectors[j], c) ==> k !in injectors[j].entries by {
        FirstInjector(c, injectors, k);
      }
    }
    forall i, k | 0 <= i < |injectors| && Applies(injectors[i], c) && k in injectors[i].entries
      ensures k in after
    {
      FirstWinsPicksFirst(c, injectors, k);
    }
  }

  /** Among providers proposing a name, there is a first one. */
  lemma FirstInjector(c: Container, ps: seq<Provider>, k: string)
    requires exists i :: 0 <= i < |ps| && Applies(ps[i], c) && k in ps[i].entries
    ensures exists i :: 0 <= i < |ps| && Applies(ps[i], c) && k in ps[i].entries
                        && forall j :: 0 <= j < i && Applies(ps[j], c) ==> k !in ps[j].entries
  {
    var i :| 0 <= i < |ps| && Applies(ps[i], c) && k in ps[i].entries;
    FirstAtOrBelow(c, ps, k, i);
  }

  /** A proposing provider at `i` has a first proposing provider at or before it. */
  lemma {:induction false} FirstAtOrBelow(c: Container, ps: seq<Provider>, k: string, i: nat)
    requires i < |ps| && Applies(ps[i], c) && k in ps[i].entries
    ensures exists f :: 0 <= f <= i && Applies(ps[f], c) && k in ps[f].entries
                        && forall j :: 0 <= j < f && Applies(ps[j], c) ==> k !in ps[j].entries
    decreases i
  {
    if exists j :: 0 <= j < i && Applies(ps[j], c) && k in ps[j].entries {
      var j :| 0 <= j < i && Applies(ps[j], c) && k in ps[j].entries;
      FirstAtOrBelow(c, ps, k, j);
    }
  }

  /** The caller sees each name an extender supplies with the extender's
      transient child, overriding persisted and injected models; every other
      visible name shows the persisted model. */
  lemma ContentExtenderWins(c: Container, injectors: seq<Provider>, extenders: seq<Provider>, k: string)
    ensures var r := Content(c, injectors, extenders);
            && (k in r.visible <==> k in r.container.items || exists i :: 0 <= i < |extenders| && Applies(extenders[i], c) && k in extenders[i].entries)
            && (k in LastWins(c, extenders) ==>
                  r.visible[k] == LastWins(c, extenders)[k] && r.visible[k].transient
                  && r.visible[k].parent == Some(c.oid) && InheritPermissions(r.visible[k]))
            && (k !in LastWins(c, extenders) && k in r.visible ==> r.visible[k] == r.container.items[k])
  {
    LastWinsPicksLast(c, extenders, k);
    ExtendedChildrenAreTransient(c, extenders);
  }

  /** Reading a container twice with unchanged providers gives the same
      children and persists nothing more the second time. */
  lemma ContentIdempotent(c: Container, injectors: seq<Provider>, extenders: seq<Provider>)
    ensures var once := Content(c, injectors, extenders);
            Content(once.container, injectors, extenders) == once
  {
    var once := Content(c, injectors, extenders);
    var c1 := once.container;
    SameFilterSameUnions(c, c1, injectors, extenders);
    assert FirstWins(c1, injectors) + c1.items == c1.items;
  }

  lemma {:induction false} SameFilterSameUnions(c: Container, d: Container, injectors: seq<Provider>, extenders: seq<Provider>)
    requires c.oid == d.oid && c.interfaces == d.interfaces
    ensures FirstWins(c, injectors) == FirstWins(d, injectors)
    ensures LastWins(c, extenders) == LastWins(d, extenders)
    decreases |injectors| + |extenders|
  {
    if |injectors| > 0 {
      SameFilterSameUnions(c, d, injectors[1..], extenders);
    } else if |extenders| > 0 {
      SameFilterSameUnions(c, d, injectors, extenders[1..]);
    }
  }

  lemma SingleInjector(box: Container, e: map<string, Node>)
    ensures FirstWins(box, [Provider({}, e)]) == Adopted(e, box.oid)
  {
    assert [Provider({}, e)][1..] == [];
  }

  lemma SingleExtender(box: Container, e: map<string, Node>)
    ensures LastWins(box, [Provider({}, e)]) == Transients(e, box.oid)
  {
    assert [Provider({}, e)][1..] == [];
  }

  /** The worked example: persisted {a}, injector {b, c1}, extender {c2, d}. */
  lemma ContentExample(a: Node, b: Node, c1: Node, c2: Node, d: Node)
    ensures var box := Container(1, DefaultKind(), {}, map["a" := a]);
            var r := Content(box, [Provider({}, map["b" := b, "c" := c1])], [Provider({}, map["c" := c2, "d" := d])]);
            && r.container.items == map["a" := a, "b" := b.(parent := Some(1)), "c" := c1.(parent := Some(1))]
            && r.visible == map["a" := a, "b" := b.(parent := Some(1)),
                                "c" := c2.(parent := Some(1), transient := true, inheritFlag := true),
                                "d" := d.(parent := Some(1), transient := true, inheritFlag := true)]
  {
    var box := Container(1, DefaultKind(), {}, map["a" := a]);
    var ei := map["b" := b, "c" := c1];
    var ee := map["c" := c2, "d" := d];
    SingleInjector(box, ei);
    SingleExtender(box, ee);
    var b', c1' := b.(parent := Some(1)), c1.(parent := Some(1));
    var c2', d' := c2.(parent := Some(1), transient := true, inheritFlag := true), d.(parent := Some(1), transient := true, inheritFlag := true);
    assert Adopted(ei, 1) == map["b" := b', "c" := c1'];
    assert Transients(ee, 1) == map["c" := c2', "d" := d'];
    ExampleMaps(a, b', c1', c2', d');
  }

  /** The two map unions of the worked example, for any kind of value. */
  lemma ExampleMaps<V>(a: V, b: V, c1: V, c2: V, d: V)
    ensures map["b" := b, "c" := c1] + map["a" := a] == map["a" := a, "b" := b, "c" := c1]
    ensures map["a" := a, "b" := b, "c" := c1] + map["c" := c2, "d" := d] == map["a" := a, "b" := b, "c" := c2, "d" := d]
  {
  }

  function DefaultKind(): Kind {
    Writable(DefaultContainment)
  }

  // ---------------------------------------------------------------- reading

  /** `__getitem__`: the visible child of that name, if any, and the container
      as left by the injection pass. */
  function GetItem(c: Container, injectors: seq<Provider>, extenders: seq<Provider>, key: string): (r: (Option<Node>, Container))
    ensures r.0.Some? <==> key in c.items || key in FirstWins(c, injectors) || key in LastWins(c, extenders)
    ensures key in LastWins(c, extenders) ==> r.0 == Some(LastWins(c, extenders)[key])
    ensures key !in LastWins(c, extenders) && key in c.items ==> r.0 == Some(c.items[key])
    ensures key !in LastWins(c, extenders) && key !in c.items && key in FirstWins(c, injectors) ==>
              r.0 == Some(FirstWins(c, injectors)[key])
    ensures r.1 == Content(c, injectors, extenders).container
  {
    var comp := Content(c, injectors, extenders);
    (if key in comp.visible then Some(comp.visible[key]) else None, comp.container)
  }

  /** `listnames`: the persisted names, the injected names and the extended names. */
  function ListNames(c: Container, injectors: seq<Provider>, extenders: seq<Provider>): (r: (set<string>, Container))
    ensures r.0 == c.items.Keys + FirstWins(c, injectors).Keys + LastWins(c, extenders).Keys
    ensures c.items.Keys <= r.1.items.Keys <= r.0
    ensures r.1 == Content(c, injectors, extenders).container
  {
    var comp := Content(c, injectors, extenders);
    (comp.visible.Keys, comp.container)
  }

  // ---------------------------------------------------------------- writing

  /** Whether an interface containment accepts the candidate outright: it
      declares the interface among its markers, or provides it (everything
      provides the base `Interface`). */
  predicate InterfaceAccepts(iface: string, item: Node) {
    iface in item.markers || iface == BaseInterface || iface in Features(item)
  }

  /** `can_contain` as written: for an interface containment a candidate that
      neither declares nor provides the interface reaches
      `implementedBy(instance)`, which raises TypeError for a non-factory. */
  function CanContainAsWritten(c: Container, item: Node): (r: Result<bool>)
    ensures c.kind.Readonly? ==> r == Ok(false)
    ensures c.kind.Writable? && c.kind.contains.ByInterface? ==>
              (r == Ok(true) <==> InterfaceAccepts(c.kind.contains.iface, item))
              && (r.Err? <==> !InterfaceAccepts(c.kind.contains.iface, item))
              && (r.Err? ==> r.error == TypeError)
    ensures c.kind.Writable? ==> r != Ok(false)
  {
    match c.kind
    case Readonly => Ok(false)
    case Writable(ByInterface(i)) => if InterfaceAccepts(i, item) then Ok(true) else Err(TypeError)
    case Writable(ByClass(k)) => if k in item.classes then Ok(true) else Err(TypeError)
  }

  /** A witness: a container of `IFoo` things meets a plain node. */
  lemma CanContainAsWrittenRaises(item: Node)
    requires item.markers == [] && item.classIfaces == {} && item.direct == {}
    ensures CanContainAsWritten(Container(1, Writable(ByInterface("IFoo")), {}, map[]), item) == Err(TypeError)
  {
  }

  /** `can_contain`: never for a read-only container; for an interface, exactly
      when the candidate declares it among its markers or provides it, and a
      plain no otherwise; for a class, when the candidate is an instance of it. */
  function CanContain(c: Container, item: Node): (r: Result<bool>)
    ensures c.kind.Readonly? ==> r == Ok(false)
    ensures c.kind == Writable(DefaultContainment) ==> r == Ok(true)
    ensures c.kind.Writable? && c.kind.contains.ByInterface? ==>
              r.Ok? && (r.value <==> InterfaceAccepts(c.kind.contains.iface, item))
    ensures c.kind.Writable? && c.kind.contains.ByClass? ==>
              (r == Ok(true) <==> c.kind.contains.cls in item.classes)
              && (r.Err? <==> c.kind.contains.cls !in item.classes)
              && (r.Err? ==> r.error == TypeError)
  {
    match c.kind
    case Readonly => Ok(false)
    case Writable(ByInterface(i)) => Ok(InterfaceAccepts(i, item))
    case Writable(ByClass(k)) => if k in item.classes then Ok(true) else Err(TypeError)
  }

  /** The corrected check differs from the written one only where the written
      one raises for an interface: there it answers no. Every acceptance and
      every class-containment error is the same. */
  lemma CanContainCorrectsAsWritten(c: Container, item: Node)
    ensures CanContain(c, item) == Ok(true) <==> CanContainAsWritten(c, item) == Ok(true)
    ensures CanContain(c, item) != CanContainAsWritten(c, item) <==>
              c.kind.Writable? && c.kind.contains.ByInterface? && !InterfaceAccepts(c.kind.contains.iface, item)
    ensures CanContain(c, item) != CanContainAsWritten(c, item) ==>
              CanContain(c, item) == Ok(false) && CanContainAsWritten(c, item) == Err(TypeError)
  {
  }

  /** A class containment never answers no for an instance: it accepts an
      instance of the class, and `issubclass` raises for any other. */
  lemma ClassContainmentNeverRefuses(c: Container, item: Node)
    requires c.kind.Writable? && c.kind.contains.ByClass?
    ensures CanContain(c, item) != Ok(false)
  {
  }

  function ContainmentName(k: Containment): string {
    match k
    case ByInterface(i) => i
    case ByClass(n) => n
  }

  /** `Container.remove`: deletes the entry under the item's name, whatever
      it holds; a read-only container has no `remove` attribute. */
  function Remove(c: Container, item: Node): (r: Result<Container>)
    ensures c.kind.Readonly? ==> r == Err(AttributeError("remove"))
    ensures c.kind.Writable? ==> (r.Ok? <==> item.name in c.items)
    ensures c.kind.Writable? && item.name !in c.items ==> r == Err(KeyError(item.name))
    ensures r.Ok? ==> r.value.items.Keys == c.items.Keys - {item.name}
    ensures r.Ok? ==> r.value == c.(items := r.value.items) && forall k :: k in r.value.items ==> r.value.items[k] == c.items[k]
  {
    if c.kind.Readonly? then Err(AttributeError("remove")) else DelItem(c, item.name)
  }

  /** `Container.__delitem__`: a missing key raises KeyError; a read-only
      container defines no `__delitem__`, so `del` raises TypeError. */
  function DelItem(c: Container, key: string): (r: Result<Container>)
    ensures c.kind.Readonly? ==> r == Err(TypeError)
    ensures c.kind.Writable? && key !in c.items ==> r == Err(KeyError(key))
    ensures r.Ok? <==> c.kind.Writable? && key in c.items
    ensures r.Ok? ==> r.value.items.Keys == c.items.Keys - {key}
    ensures r.Ok? ==> r.value == c.(items := r.value.items) && forall k :: k in r.value.items ==> r.value.items[k] == c.items[k]
  {
    if c.kind.Readonly? then Err(TypeError)
    else if key !in c.items then Err(KeyError(key))
    else Ok(c.(items := c.items - {key}))
  }

  /** The uuid-based `_new_id` is modelled by a caller-supplied name that is
      non-empty and not yet a key. */
  predicate FreshFor(t: Tree, cid: Oid, item: Node, newId: string)
    requires cid in t
  {
    item.name == "" ==> newId != "" && newId !in t[cid].items
  }

  /** The name `_add` stores an item under. */
  function StoredName(item: Node, newId: string): string {
    if item.name == "" then newId else item.name
  }

  /** `Container._add`: an item already in this container is left alone and
      no id is returned; otherwise it is removed from its former parent, gets
      this container as parent and is stored under its own name or, when
      unnamed, a newId one, which is also written back as its name. */
  function AddRaw(t: Tree, cid: Oid, item: Node, newId: string): (r: Result<(Tree, Option<string>)>)
    requires cid in t && t[cid].kind.Writable?
    requires item.parent.Some? ==> item.parent.value in t
    requires FreshFor(t, cid, item, newId)
    ensures item.parent == Some(cid) ==> r == Ok((t, None))
    ensures item.parent.Some? && item.parent != Some(cid) ==>
              (r.Ok? <==> t[item.parent.value].kind.Writable? && item.name in t[item.parent.value].items)
    ensures item.parent.None? ==> r.Ok?
    ensures r.Ok? && item.parent != Some(cid) ==>
              var (t', id) := r.value;
              && id == Some(StoredName(item, newId))
              && t'.Keys == t.Keys
              && t'[cid] == t[cid].(items := t'[cid].items)
              && t'[cid].items.Keys == t[cid].items.Keys + {id.value}
              && t'[cid].items[id.value].parent == Some(cid)
              && t'[cid].items[id.value].name == id.value
              && t'[cid].items[id.value] == item.(parent := Some(cid), name := id.value)
              && (forall k :: k in t[cid].items && k != id.value ==> t'[cid].items[k] == t[cid].items[k])
              && (item.parent.Some? ==>
                    t'[item.parent.value].items.Keys == t[item.parent.value].items.Keys - {item.name})
              && (forall o :: o in t && o != cid && Some(o) != item.parent ==> t'[o] == t[o])
  {
    if item.parent == Some(cid) then Ok((t, None))
    else
      var t1 :- if item.parent.Some? then Detach(t, item.parent.value, item) else Ok(t);
      var c := t1[cid];
      var id := StoredName(item, newId);
      Ok((t1[cid := c.(items := c.items[id := item.(parent := Some(cid), name := id)])], Some(id)))
  }

  function Detach(t: Tree, pid: Oid, item: Node): (r: Result<Tree>)
    requires pid in t
    ensures r.Ok? ==> r.value.Keys == t.Keys && forall o :: o in t && o != pid ==> r.value[o] == t[o]
  {
    var p :- Remove(t[pid], item);
    Ok(t[pid := p])
  }

  datatype AddOutcome = AddOutcome(tree: Tree, id: Option<string>, event: Event)

  /** The common part of `add`: the containment check, as written or
      corrected, then `_add`. */
  function AddChecked(t: Tree, cid: Oid, item: Node, newId: string, asWritten: bool): (r: Result<(Tree, Option<string>)>)
    requires cid in t
    requires item.parent.Some? ==> item.parent.value in t
    requires FreshFor(t, cid, item, newId)
  {
    var c := t[cid];
    if c.kind.Readonly? then Err(AttributeError("add"))
    else
      var accepted :- if asWritten then CanContainAsWritten(c, item) else CanContain(c, item);
      if !accepted then Err(ContainmentRejected(ContainmentName(c.kind.contains)))
      else AddRaw(t, cid, item, newId)
  }

  /** `AddingContainer.add` as written: `can_contain` as written, which raises
      for a refused interface candidate; and the moved event is built after
      `_add` has already replaced the item's parent, so it names this
      container as both the old and the new parent. */
  function AddAsWritten(t: Tree, cid: Oid, item: Node, newId: string): (r: Result<AddOutcome>)
    requires cid in t
    requires item.parent.Some? ==> item.parent.value in t
    requires FreshFor(t, cid, item, newId)
    ensures t[cid].kind.Readonly? ==> r == Err(AttributeError("add"))
    ensures t[cid].kind.Writable? && CanContainAsWritten(t[cid], item).Err? ==> r == Err(TypeError)
    ensures t[cid].kind.Writable? && CanContainAsWritten(t[cid], item) == Ok(true) && item.parent.None? ==> r.Ok?
    ensures r.Ok? ==> AddRaw(t, cid, item, newId) == Ok((r.value.tree, r.value.id))
    ensures r.Ok? ==> (r.value.event.Moved? <==> item.parent.Some? && item.parent != Some(cid))
    ensures r.Ok? && r.value.event.Moved? ==> r.value.event.from == r.value.event.to == cid
  {
    var (t', id) :- AddChecked(t, cid, item, newId, true);
    var event := if item.parent.Some? && item.parent != Some(cid) then Moved(item.oid, cid, cid) else Created(item.oid, cid);
    Ok(AddOutcome(t', id, event))
  }

  /** A witness: moving an item out of container 7 into container 3 reports
      a move from 3 to 3. */
  lemma AddAsWrittenForgetsOrigin(item: Node)
    requires item.parent == Some(7) && item.name == "x"
    ensures var t := map[3 := Container(3, DefaultKind(), {}, map[]), 7 := Container(7, DefaultKind(), {}, map["x" := item])];
            AddAsWritten(t, 3, item, "").Ok?
            && AddAsWritten(t, 3, item, "").value.event == Moved(item.oid, 3, 3)
  {
  }

  /** A witness: adding a plain parentless node to a container of `IFoo`
      things raises TypeError as written, where the corrected `add` reports
      the containment refusal. */
  lemma AddAsWrittenRaisesOnRefusal(item: Node)
    requires item.parent.None? && item.name == "x"
    requires item.markers == [] && item.classIfaces == {} && item.direct == {}
    ensures var t := map[1 := Container(1, Writable(ByInterface("IFoo")), {}, map[])];
            && AddAsWritten(t, 1, item, "") == Err(TypeError)
            && Add(t, 1, item, "") == Err(ContainmentRejected("IFoo"))
  {
  }

  /** `AddingContainer.add`: a read-only container has no `add`; a candidate
      `can_contain` rejects raises and changes nothing; otherwise `_add` runs
      and a moved event names the former parent when the item came from
      another container, a created event otherwise. */
  function Add(t: Tree, cid: Oid, item: Node, newId: string): (r: Result<AddOutcome>)
    requires cid in t
    requires item.parent.Some? ==> item.parent.value in t
    requires FreshFor(t, cid, item, newId)
    ensures t[cid].kind.Readonly? ==> r == Err(AttributeError("add"))
    ensures t[cid].kind.Writable? && CanContain(t[cid], item) == Ok(false) ==> r == Err(ContainmentRejected(ContainmentName(t[cid].kind.contains)))
    ensures t[cid].kind.Writable? && CanContain(t[cid], item).Err? ==> r == Err(TypeError)
    ensures t[cid].kind.Writable? && CanContain(t[cid], item) == Ok(true) && item.parent.None? ==> r.Ok?
    ensures r.Ok? ==> AddRaw(t, cid, item, newId) == Ok((r.value.tree, r.value.id))
    ensures r.Ok? ==> (r.value.event.Moved? <==> item.parent.Some? && item.parent != Some(cid))
    ensures r.Ok? && r.value.event.Moved? ==> r.value.event == Moved(item.oid, item.parent.value, cid)
    ensures r.Ok? && !r.value.event.Moved? ==> r.value.event == Created(item.oid, cid)
  {
    var (t', id) :- AddChecked(t, cid, item, newId, false);
    var event := if item.parent.Some? && item.parent != Some(cid) then Moved(item.oid, item.parent.value, cid) else Created(item.oid, cid);
    Ok(AddOutcome(t', id, event))
  }

  /** Adding a parentless item and deleting it again under the returned name
      restores the container, provided the name was not taken before. */
  lemma AddThenDelete(t: Tree, cid: Oid, item: Node, newId: string)
    requires cid in t && item.parent.None? && FreshFor(t, cid, item, newId)
    requires item.name !in t[cid].items
    requires Add(t, cid, item, newId).Ok?
    ensures var out := Add(t, cid, item, newId).value;
            out.id.Some? && cid in out.tree && DelItem(out.tree[cid], out.id.value) == Ok(t[cid])
  {
    var out := Add(t, cid, item, newId).value;
    var c' := out.tree[cid];
    var id := out.id.value;
    assert id !in t[cid].items;
    assert c'.items - {id} == t[cid].items;
  }

  // ---------------------------------------------------------------- rename

  datatype RenameOutcome = RenameOutcome(container: Container, error: Option<Error>)

  /** `AddingContainer.rename` as written: copy to the new key, delete the old
      key, then rename the entry under the new key. When both names are equal
      the delete removes the only entry and the last step raises KeyError. */
  function RenameAsWritten(c: Container, oldName: string, newName: string): (r: RenameOutcome)
    ensures c.kind.Readonly? ==> r == RenameOutcome(c, Some(AttributeError("rename")))
    ensures c.kind.Writable? && oldName !in c.items ==> r == RenameOutcome(c, Some(KeyError(oldName)))
    ensures c.kind.Writable? && oldName in c.items && oldName == newName ==>
              r.error == Some(KeyError(newName)) && r.container.items == c.items - {oldName}
  {
    if c.kind.Readonly? then RenameOutcome(c, Some(AttributeError("rename")))
    else if oldName !in c.items then RenameOutcome(c, Some(KeyError(oldName)))
    else
      var moved := c.items[newName := c.items[oldName]] - {oldName};
      if newName !in moved then RenameOutcome(c.(items := moved), Some(KeyError(newName)))
      else RenameOutcome(c.(items := moved[newName := moved[newName].(name := newName)]), None)
  }

  /** A witness: renaming "a" to "a" loses the entry. */
  lemma RenameAsWrittenSameNameLosesEntry(n: Node)
    ensures var r := RenameAsWritten(Container(1, DefaultKind(), {}, map["a" := n]), "a", "a");
            r.error.Some? && "a" !in r.container.items
  {
  }

  /** `rename` as intended: the new name maps to the same item renamed, the old
      name is gone unless it is the new one, all other entries stay. */
  function Rename(c: Container, oldName: string, newName: string): (r: Result<Container>)
    ensures c.kind.Readonly? ==> r == Err(AttributeError("rename"))
    ensures c.kind.Writable? ==> (r.Ok? <==> oldName in c.items)
    ensures r.Ok? ==> && r.value == c.(items := r.value.items)
                      && r.value.items.Keys == c.items.Keys - {oldName} + {newName}
                      && r.value.items[newName] == c.items[oldName].(name := newName)
                      && forall k :: k in c.items && k != oldName && k != newName ==> r.value.items[k] == c.items[k]
  {
    if c.kind.Readonly? then Err(AttributeError("rename"))
    else if oldName !in c.items then Err(KeyError(oldName))
    else Ok(c.(items := (c.items - {oldName})[newName := c.items[oldName].(name := newName)]))
  }

  /** With distinct names the written code and the intended one agree. */
  lemma RenameAgreesOnDistinctNames(c: Container, oldName: string, newName: string)
    requires oldName != newName && c.kind.Writable? && oldName in c.items
    ensures RenameAsWritten(c, oldName, newName) == RenameOutcome(Rename(c, oldName, newName).value, None)
  {
    var moved := c.items[newName := c.items[oldName]] - {oldName};
    assert moved[newName := moved[newName].(name := newName)]
        == (c.items - {oldName})[newName := c.items[oldName].(name := newName)];
  }

  /** Renaming back restores the container when the new name was free and the
      entry was named by its key. */
  lemma RenameRoundTrip(c: Container, a: string, b: string)
    requires c.kind.Writable? && a in c.items && b !in c.items && c.items[a].name == a
    ensures Rename(c, a, b).Ok?
    ensures Rename(Rename(c, a, b).value, b, a) == Ok(c)
  {
    var c1 := Rename(c, a, b).value;
    var c2 := Rename(c1, b, a).value;
    assert c2.items == c.items;
  }
}

=== FILE: models.dfy ===
/** The `Model` base class of the object tree: timestamps, the mtime-on-setattr
    rule, permission inheritance, the single-owner role and the `features`
    pseudo-attribute built from marker interfaces. */
module Models {
  import opened Results
  import opened Strings

  /** Object identity (Python's `is`). */
  type Oid = nat

  /** A principal id. */
  type Principal = string

  /** The setting a role manager stores for one principal; an unset role has no entry. */
  datatype RoleSetting = Allow | Deny

  datatype Event =
    | Created(item: Oid, container: Oid)
    | Moved(item: Oid, from: Oid, to: Oid)
    | OwnerChanged(node: Oid, previous: Option<Principal>, next: Principal)

  /** One model object. Interfaces and classes are named by strings. */
  datatype Node = Node(
    oid: Oid,
    name: string,                       // `__name__`; "" stands for None
    parent: Option<Oid>,                // `__parent__`
    transient: bool,                    // `__transient__`
    inheritFlag: bool,                  // `_inherit_permissions`
    ctime: int,
    mtime: int,
    classIfaces: set<string>,           // interfaces the class implements
    direct: set<string>,                // interfaces directly provided by the instance
    markers: seq<string>,               // names of the class's `__markers__`
    classes: set<string>,               // the class and its bases, for isinstance
    ownerRoles: map<Principal, RoleSetting>,
    attrs: map<string, string>          // plain public attributes
  )

  /** Attribute names whose assignment never refreshes mtime. */
  const MtimeBlacklist: set<string> := {"inherit_permissions", "owner", "features", "oid", "metadata"}

  /** `Model.__init__`: both timestamps are the creation time. */
  function NewModel(oid: Oid, now: int, classIfaces: set<string>, markers: seq<string>, classes: set<string>): (n: Node)
    ensures n.ctime == now && n.mtime == now
    ensures n.parent == None && n.name == "" && !n.transient && !InheritPermissions(n)
    ensures Features(n) == classIfaces && OwnerSet(n.ownerRoles) == {}
  {
    Node(oid, "", None, false, false, now, now, classIfaces, {}, markers, classes, map[], map[])
  }

  /** Whether assigning attribute `name` refreshes mtime. */
  predicate RefreshesMtime(name: string) {
    !StartsWith(name, "_") && name !in MtimeBlacklist
  }

  /** The properties without a setter: assigning them raises AttributeError. */
  const ReadOnlyProperties: set<string> := {"ctime", "mtime"}

  /** Names that a field of `Node` stands for, or that run a property setter
      modelled by its own function (`SetFeatures`, `SetInheritPermissions`,
      `SetOwner`); `SetAttr` is not about them. */
  const ModelledNames: set<string> := {"features", "inherit_permissions", "__owner__", "_inherit_permissions",
                                       "_ctime", "_mtime", "__parent__", "__name__", "__transient__"}

  /** `Model.__setattr__`: a read-only property raises before anything is
      stored; any other attribute is stored, then mtime is refreshed unless
      the name is private or blacklisted. */
  function SetAttr(n: Node, name: string, value: string, now: int): (r: Result<Node>)
    requires name !in ModelledNames
    ensures r.Err? <==> name in ReadOnlyProperties
    ensures r.Err? ==> r.error == AttributeError(name)
    ensures r.Ok? ==> r.value.attrs == n.attrs[name := value]
    ensures r.Ok? ==> r.value.mtime == (if RefreshesMtime(name) then now else n.mtime)
    ensures r.Ok? ==> r.value.(mtime := n.mtime, attrs := n.attrs) == n
  {
    if name in ReadOnlyProperties then Err(AttributeError(name))
    else
      var stored := n.(attrs := n.attrs[name := value]);
      if !StartsWith(name, "_") && name !in MtimeBlacklist then Ok(stored.(mtime := now)) else Ok(stored)
  }

  /** Private and blacklisted names never move mtime; every other assignable
      name sets it to now; the timestamps themselves cannot be assigned. */
  lemma MtimeRule(n: Node, name: string, value: string, now: int)
    requires name !in ModelledNames
    ensures name in ReadOnlyProperties ==> SetAttr(n, name, value, now) == Err(AttributeError(name))
    ensures name !in ReadOnlyProperties && ((|name| > 0 && name[0] == '_') || name in MtimeBlacklist) ==>
              SetAttr(n, name, value, now).Ok? && SetAttr(n, name, value, now).value.mtime == n.mtime
    ensures name !in ReadOnlyProperties && (|name| == 0 || name[0] != '_') && name !in MtimeBlacklist ==>
              SetAttr(n, name, value, now).Ok? && SetAttr(n, name, value, now).value.mtime == now
  {
    if |name| > 0 && name[0] == '_' {
      assert StartsWith(name, "_");
    }
    if |name| == 0 || name[0] != '_' {
      assert !StartsWith(name, "_");
    }
  }

  /** `inherit_permissions` reads true for transient nodes whatever was set. */
  function InheritPermissions(n: Node): (r: bool)
    ensures n.transient ==> r
    ensures !n.transient ==> r == n.inheritFlag
  {
    n.inheritFlag || n.transient
  }

  /** The `inherit_permissions` setter. */
  function SetInheritPermissions(n: Node, value: bool): (r: Node)
    ensures InheritPermissions(r) == (value || n.transient)
    ensures r.(inheritFlag := n.inheritFlag) == n
  {
    n.(inheritFlag := value)
  }

  // ---------------------------------------------------------------- owner

  /** Principals holding the owner role with an Allow setting. */
  function OwnerSet(roles: map<Principal, RoleSetting>): set<Principal> {
    set p | p in roles && roles[p] == Allow
  }

  lemma SingletonIsUnique(s: set<Principal>, a: Principal, b: Principal)
    requires |s| == 1 && a in s && b in s
    ensures a == b
  {
    var rest := s - {a};
    assert |rest| == 0;
    assert b !in rest || b == a;
  }

  /** `get_owner`: the owner's id, None when nobody owns the node, and an
      assertion failure when two principals hold the role. */
  function GetOwner(n: Node): (r: Result<Option<Principal>>)
    ensures r.Err? <==> |OwnerSet(n.ownerRoles)| > 1
    ensures r == Ok(None) <==> OwnerSet(n.ownerRoles) == {}
    ensures r.Ok? && r.value.Some? ==> OwnerSet(n.ownerRoles) == {r.value.value}
  {
    var owners := OwnerSet(n.ownerRoles);
    if |owners| > 1 then Err(AssertionFailed)
    else if |owners| == 0 then Ok(None)
    else
      var p :| p in owners;
      assert forall q :: q in owners ==> q == p by {
        forall q | q in owners { SingletonIsUnique(owners, p, q); }
      }
      Ok(Some(p))
  }

  /** The role store after `unsetRoleForPrincipal('owner', previous)`. */
  function UnsetOwner(roles: map<Principal, RoleSetting>, previous: Option<Principal>): map<Principal, RoleSetting> {
    if previous.Some? then roles - {previous.value} else roles
  }

  /** The role store after `unsetRoleForPrincipal('owner', previous)` and
      `assignRoleToPrincipal('owner', p)`. */
  function ReassignOwner(roles: map<Principal, RoleSetting>, previous: Option<Principal>, p: Principal): map<Principal, RoleSetting> {
    UnsetOwner(roles, previous)[p := Allow]
  }

  lemma ReassignOwnerSingle(roles: map<Principal, RoleSetting>, previous: Option<Principal>, p: Principal)
    requires previous.None? ==> OwnerSet(roles) == {}
    requires previous.Some? ==> OwnerSet(roles) == {previous.value}
    ensures OwnerSet(ReassignOwner(roles, previous, p)) == {p}
  {
    var r := ReassignOwner(roles, previous, p);
    assert p in OwnerSet(r);
    forall q | q in OwnerSet(r) && q != p ensures q in OwnerSet(roles) {
    }
  }

  /** `set_owner` as written: line 150 re-reads `__owner__` after the new role
      has been assigned, so the comparison is with the new owner itself and no
      OwnerChanged event is ever produced. A `None` principal gets as far as
      unsetting the previous owner's role, then `principal.id` raises
      AttributeError, so the node is left without an owner. The node is
      returned alongside the outcome because that update survives the error. */
  function SetOwnerAsWritten(n: Node, p: Option<Principal>): (r: (Node, Result<Option<Event>>))
    ensures |OwnerSet(n.ownerRoles)| > 1 ==> r == (n, Err(AssertionFailed))
    ensures r.1.Err? <==> |OwnerSet(n.ownerRoles)| > 1 || p.None?
    ensures |OwnerSet(n.ownerRoles)| <= 1 && p.None? ==>
              r.1 == Err(AttributeError("id")) && OwnerSet(r.0.ownerRoles) == {}
    ensures r.1.Ok? ==> p.Some? && OwnerSet(r.0.ownerRoles) == {p.value}
    ensures r.0 == n.(ownerRoles := r.0.ownerRoles)
  {
    match GetOwner(n)
    case Err(e) => (n, Err(e))
    case Ok(previous) =>
      if p.None? then
        var unset := UnsetOwner(n.ownerRoles, previous);
        assert OwnerSet(unset) <= OwnerSet(n.ownerRoles) - (if previous.Some? then {previous.value} else {});
        (n.(ownerRoles := unset), Err(AttributeError("id")))
      else
        ReassignOwnerSingle(n.ownerRoles, previous, p.value);
        var n' := n.(ownerRoles := ReassignOwner(n.ownerRoles, previous, p.value));
        var reread := GetOwner(n');
        if reread.Err? then assert false; (n, Err(AssertionFailed))
        else if reread.value != p then (n', Ok(Some(OwnerChanged(n.oid, reread.value, p.value))))
        else (n', Ok(None))
  }

  /** The event OwnerChanged is unreachable in `set_owner` as written. */
  lemma SetOwnerAsWrittenNeverSignals(n: Node, p: Option<Principal>)
    requires SetOwnerAsWritten(n, p).1.Ok?
    ensures SetOwnerAsWritten(n, p).1.value == None
  {
    var previous := GetOwner(n).value;
    ReassignOwnerSingle(n.ownerRoles, previous, p.value);
  }

  /** A concrete witness: handing a node owned by "alice" to "bob" signals nothing. */
  lemma SetOwnerAsWrittenMissesChange()
    ensures var n := NewModel(0, 0, {}, [], {}).(ownerRoles := map["alice" := Allow]);
            SetOwnerAsWritten(n, Some("bob")) == (n.(ownerRoles := map["bob" := Allow]), Ok(None))
  {
    var n := NewModel(0, 0, {}, [], {}).(ownerRoles := map["alice" := Allow]);
    assert OwnerSet(n.ownerRoles) == {"alice"};
    var roles' := map["bob" := Allow];
    assert ReassignOwner(n.ownerRoles, Some("alice"), "bob") == roles';
    assert OwnerSet(roles') == {"bob"};
  }

  /** A concrete witness: `set_owner(None)` on a node owned by "alice" drops
      her role and then raises. */
  lemma SetOwnerAsWrittenNoneDropsOwner()
    ensures var n := NewModel(0, 0, {}, [], {}).(ownerRoles := map["alice" := Allow]);
            SetOwnerAsWritten(n, None) == (n.(ownerRoles := map[]), Err(AttributeError("id")))
  {
    var n := NewModel(0, 0, {}, [], {}).(ownerRoles := map["alice" := Allow]);
    assert OwnerSet(n.ownerRoles) == {"alice"};
    assert UnsetOwner(n.ownerRoles, Some("alice")) == map[];
  }

  /** `set_owner` with the previous owner captured before the role changes:
      the new principal is the only owner, and OwnerChanged is produced
      exactly when the owner id differs from the previous one. */
  function SetOwner(n: Node, p: Principal): (r: Result<(Node, Option<Event>)>)
    ensures r.Err? <==> |OwnerSet(n.ownerRoles)| > 1
    ensures r.Ok? ==> OwnerSet(r.value.0.ownerRoles) == {p}
    ensures r.Ok? ==> r.value.0 == n.(ownerRoles := r.value.0.ownerRoles)
    ensures r.Ok? ==> (r.value.1.Some? <==> GetOwner(n) != Ok(Some(p)))
    ensures r.Ok? && r.value.1.Some? ==> r.value.1.value == OwnerChanged(n.oid, GetOwner(n).value, p)
  {
    var previous :- GetOwner(n);
    ReassignOwnerSingle(n.ownerRoles, previous, p);
    var n' := n.(ownerRoles := ReassignOwner(n.ownerRoles, previous, p));
    if previous != Some(p) then Ok((n', Some(OwnerChanged(n.oid, previous, p)))) else Ok((n', None))
  }

  /** `set_owner(p)` followed by `get_owner()` yields `p`. */
  lemma SetThenGetOwner(n: Node, p: Principal)
    requires |OwnerSet(n.ownerRoles)| <= 1
    ensures SetOwner(n, p).Ok?
    ensures GetOwner(SetOwner(n, p).value.0) == Ok(Some(p))
  {
  }

  /** After any sequence of `set_owner` calls at most one principal owns the node,
      and the last principal named is the owner. */
  function SetOwners(n: Node, ps: seq<Principal>): Result<Node>
    decreases |ps|
  {
    if |ps| == 0 then Ok(n)
    else
      var step :- SetOwner(n, ps[0]);
      SetOwners(step.0, ps[1..])
  }

  lemma {:induction false} OwnerStaysUnique(n: Node, ps: seq<Principal>)
    requires |OwnerSet(n.ownerRoles)| <= 1
    ensures SetOwners(n, ps).Ok?
    ensures |OwnerSet(SetOwners(n, ps).value.ownerRoles)| <= 1
    ensures |ps| > 0 ==> GetOwner(SetOwners(n, ps).value) == Ok(Some(ps[|ps| - 1]))
    decreases |ps|
  {
    if |ps| > 0 {
      var step := SetOwner(n, ps[0]).value;
      assert OwnerSet(step.0.ownerRoles) == {ps[0]};
      OwnerStaysUnique(step.0, ps[1..]);
      if |ps| == 1 {
        assert ps[1..] == [];
      } else {
        assert ps[1..][|ps[1..]| - 1] == ps[|ps| - 1];
      }
    }
  }

  // ---------------------------------------------------------------- features

  /** `get_features`: names of the class's interfaces and of the directly provided ones. */
  function Features(n: Node): (r: set<string>)
    ensures n.classIfaces <= r && n.direct <= r
    ensures forall i :: i in r && i !in n.classIfaces ==> i in n.direct
  {
    n.classIfaces + n.direct
  }

  /** A `+x` or `-x` value of `set_features`. */
  predicate HasOperator(v: string) {
    |v| > 0 && (v[0] == '+' || v[0] == '-')
  }

  /** The marker name a value talks about, without its operator. */
  function Operand(v: string): string {
    if HasOperator(v) then v[1..] else v
  }

  /** The effect of one value on the directly provided interfaces. `start`
      is the feature set at the start of the call. */
  function ApplyFeature(direct: set<string>, v: string, markers: seq<string>, start: set<string>): set<string> {
    if v == "" then direct
    else if Operand(v) !in markers then direct
    else if v[0] == '-' then (if Operand(v) in start then direct - {Operand(v)} else direct)
    else direct + {Operand(v)}
  }

  function ApplyFeatures(direct: set<string>, values: seq<string>, markers: seq<string>, start: set<string>): set<string>
    decreases |values|
  {
    if |values| == 0 then direct
    else ApplyFeatures(ApplyFeature(direct, values[0], markers, start), values[1..], markers, start)
  }

  /** `set_features`: without any `+`/`-` value the markers are first all
      withdrawn; each value then adds, or (with `-`) withdraws a marker that
      was a feature when the call began. Unknown names and "" are ignored. */
  function SetFeatures(n: Node, values: seq<string>): (r: Node)
    ensures r.classIfaces == n.classIfaces
    ensures r == n.(direct := r.direct)
    ensures forall x :: x !in n.markers ==> (x in r.direct <==> x in n.direct)
  {
    var start := Features(n);
    var reset := !exists i :: 0 <= i < |values| && HasOperator(values[i]);
    var base := if reset then n.direct - set m | m in n.markers else n.direct;
    NonMarkersUntouched(base, values, n.markers, start);
    n.(direct := ApplyFeatures(base, values, n.markers, start))
  }

  lemma {:induction false} NonMarkersUntouched(direct: set<string>, values: seq<string>, markers: seq<string>, start: set<string>)
    ensures forall x :: x !in markers ==> (x in ApplyFeatures(direct, values, markers, start) <==> x in direct)
    decreases |values|
  {
    if |values| > 0 {
      NonMarkersUntouched(ApplyFeature(direct, values[0], markers, start), values[1..], markers, start);
    }
  }

  /** The last value in `values` that has an effect on marker `m`: true for an
      addition, false for an effective withdrawal. */
  function LastEffect(values: seq<string>, m: string, markers: seq<string>, start: set<string>): Option<bool>
    decreases |values|
  {
    if |values| == 0 then None
    else
      var v := values[|values| - 1];
      if v != "" && Operand(v) == m && m in markers && (v[0] != '-' || m in start) then Some(v[0] != '-')
      else LastEffect(values[..|values| - 1], m, markers, start)
  }

  lemma {:induction false} ApplyFeaturesSnoc(direct: set<string>, values: seq<string>, v: string, markers: seq<string>, start: set<string>)
    ensures ApplyFeatures(direct, values + [v], markers, start)
         == ApplyFeature(ApplyFeatures(direct, values, markers, start), v, markers, start)
    decreases |values|
  {
    if |values| == 0 {
      assert values + [v] == [v];
    } else {
      assert (values + [v])[1..] == values[1..] + [v];
      ApplyFeaturesSnoc(ApplyFeature(direct, values[0], markers, start), values[1..], v, markers, start);
    }
  }

  /** Reference semantics of the value list: a marker ends up directly
      provided iff its last effective value adds it, or no value affects it
      and it was provided before. */
  lemma {:induction false} ApplyFeaturesLastEffect(direct: set<string>, values: seq<string>, markers: seq<string>, start: set<string>, m: string)
    requires m in markers
    ensures m in ApplyFeatures(direct, values, markers, start)
        <==> (LastEffect(values, m, markers, start) == Some(true)
              || (LastEffect(values, m, markers, start) == None && m in direct))
    decreases |values|
  {
    if |values| > 0 {
      var init := values[..|values| - 1];
      var v := values[|values| - 1];
      assert values == init + [v];
      ApplyFeaturesSnoc(direct, init, v, markers, start);
      ApplyFeaturesLastEffect(direct, init, markers, start, m);
    }
  }

  /** Replace-all form: with no `+`/`-` value, the markers directly provided
      afterwards are exactly the listed names that are declared markers; other
      interfaces are kept. */
  lemma SetFeaturesReplaceAll(n: Node, values: seq<string>)
    requires "" !in n.markers
    requires forall i :: 0 <= i < |values| ==> !HasOperator(values[i])
    ensures SetFeatures(n, values).direct
         == (n.direct - set m | m in n.markers) + (set i | 0 <= i < |values| && values[i] in n.markers :: values[i])
  {
    var start := Features(n);
    var base := n.direct - set m | m in n.markers;
    var r := SetFeatures(n, values).direct;
    var listed := set i | 0 <= i < |values| && values[i] in n.markers :: values[i];
    assert r == ApplyFeatures(base, values, n.markers, start);
    forall m | m in n.markers ensures m in r <==> m in listed {
      assert m != "";
      ApplyFeaturesLastEffect(base, values, n.markers, start, m);
      AddsOnlyEffect(values, m, n.markers, start);
    }
  }

  /** Without operators, the last effect on a marker is an addition iff it is listed. */
  lemma {:induction false} AddsOnlyEffect(values: seq<string>, m: string, markers: seq<string>, start: set<string>)
    requires m in markers && m != ""
    requires forall i :: 0 <= i < |values| ==> !HasOperator(values[i])
    ensures LastEffect(values, m, markers, start) != Some(false)
    ensures LastEffect(values, m, markers, start) == Some(true) <==> exists i :: 0 <= i < |values| && values[i] == m
    decreases |values|
  {
    if |values| > 0 {
      var init := values[..|values| - 1];
      var v := values[|values| - 1];
      AddsOnlyEffect(init, m, markers, start);
      if v == m {
        assert !HasOperator(v);
      } else {
        assert !HasOperator(v);
        if exists i :: 0 <= i < |values| && values[i] == m {
          var i :| 0 <= i < |values| && values[i] == m;
          assert init[i] == m;
        }
      }
    }
  }

  /** `+x` adds marker x. */
  lemma SetFeaturesAdd(n: Node, x: string)
    requires x in n.markers
    ensures SetFeatures(n, ["+" + x]).direct == n.direct + {x}
  {
    var v := "+" + x;
    assert HasOperator(v) && Operand(v) == x;
    assert ApplyFeatures(n.direct, [v], n.markers, Features(n))
        == ApplyFeatures(ApplyFeature(n.direct, v, n.markers, Features(n)), [], n.markers, Features(n));
  }

  /** `-x` withdraws x only when x was a feature at the start of the call. */
  lemma SetFeaturesRemove(n: Node, x: string)
    requires x in n.markers
    ensures SetFeatures(n, ["-" + x]).direct
         == (if x in Features(n) then n.direct - {x} else n.direct)
  {
    var v := "-" + x;
    assert HasOperator(v) && Operand(v) == x;
    assert ApplyFeatures(n.direct, [v], n.markers, Features(n))
        == ApplyFeatures(ApplyFeature(n.direct, v, n.markers, Features(n)), [], n.markers, Features(n));
  }

  /** Because `-x` consults the features at the start of the call, `+x` then
      `-x` on a node without x leaves x added. */
  lemma SetFeaturesAddThenRemove(n: Node, x: string)
    requires x in n.markers && x !in Features(n)
    ensures x in Features(SetFeatures(n, ["+" + x, "-" + x]))
  {
    var start := Features(n);
    var a := "+" + x;
    var b := "-" + x;
    assert HasOperator(a) && Operand(a) == x;
    assert HasOperator(b) && Operand(b) == x;
    var d1 := ApplyFeature(n.direct, a, n.markers, start);
    assert x in d1;
    assert ApplyFeature(d1, b, n.markers, start) == d1;
    assert ["+" + x, "-" + x][1..] == [b];
    assert ApplyFeatures(d1, [b], n.markers, start) == ApplyFeatures(ApplyFeature(d1, b, n.markers, start), [], n.markers, start);
  }

  // ---------------------------------------------------------------- vocabulary

  /** `MarkerSourceBinder.__call__`: every marker name bare and with `+` and
      `-`, together with the current features (the class features when the
      context is a class or a form's temporary object). */
  function MarkerVocabulary(n: Node, classContext: bool): (r: set<string>)
    ensures forall t :: t in r <==>
              (t in (if classContext then n.classIfaces else Features(n))
               || exists i :: 0 <= i < |n.markers| && (t == n.markers[i] || t == "+" + n.markers[i] || t == "-" + n.markers[i]))
  {
    var names := set i | 0 <= i < |n.markers| :: n.markers[i];
    var plus := set i | 0 <= i < |n.markers| :: "+" + n.markers[i];
    var minus := set i | 0 <= i < |n.markers| :: "-" + n.markers[i];
    var current := if classContext then n.classIfaces else Features(n);
    names + plus + minus + current
  }

  /** Every vocabulary term that is not a current feature is one `set_features`
      acts on: its operand is a declared marker (marker names carry no operator). */
  lemma VocabularyTermsAreMarkers(n: Node, t: string)
    requires forall i :: 0 <= i < |n.markers| ==> n.markers[i] != "" && !HasOperator(n.markers[i])
    requires t in MarkerVocabulary(n, false) && t !in Features(n)
    ensures t != "" && Operand(t) in n.markers
  {
    var i :| 0 <= i < |n.markers| && (t == n.markers[i] || t == "+" + n.markers[i] || t == "-" + n.markers[i]);
    if t == "+" + n.markers[i] || t == "-" + n.markers[i] {
      assert Operand(t) == n.markers[i];
    }
  }

  /** Assigning a property runs its setter inside `__setattr__`, which then
      applies the mtime rule to the property's own name: `features` and
      `inherit_permissions` are blacklisted and `__owner__` starts with `_`,
      so at any time `now` the setters leave mtime as the rule says. */
  lemma PropertySettersKeepMtime(n: Node, values: seq<string>, flag: bool, p: Principal, now: int)
    ensures SetFeatures(n, values).mtime == (if RefreshesMtime("features") then now else n.mtime)
    ensures SetInheritPermissions(n, flag).mtime == (if RefreshesMtime("inherit_permissions") then now else n.mtime)
    ensures SetOwner(n, p).Ok? ==> SetOwner(n, p).value.0.mtime == (if RefreshesMtime("__owner__") then now else n.mtime)
  {
  }
}

=== FILE: procs.dfy ===
/** The process registry `Proc`: live tasks, completed tasks and a counter
    from which task ids are printed. The singleton is one state value. */
module Procs {
  import opened Results
  import opened Strings

  /** A pending result handle a task may be attached to. */
  type Handle = nat

  datatype Task = Task(name: string, deferred: Option<Handle>, cmdline: Option<string>, timestamp: int, ptid: string)

  datatype Proc = Proc(tasks: map<string, Task>, deadTasks: map<string, Task>, nextId: nat)

  /** What `content()` lists: a live task, or the synthetic `completed` container. */
  datatype Entry = LiveTask(task: Task) | Completed(tasks: map<string, Task>)

  const InitId: string := "1"
  const CompletedName: string := "completed"
  /** `register`'s default parent task id. */
  const DefaultPtid: string := "1"

  /** The registry's invariant: every id is the decimal print of a number
      between 1 and `nextId`, no id is both live and completed, and each task
      is stored under its own name. */
  ghost predicate Valid(p: Proc) {
    && p.tasks.Keys !! p.deadTasks.Keys
    && (forall k :: k in p.tasks ==> IsDecimal(k) && 1 <= ParseNat(k) <= p.nextId && p.tasks[k].name == k)
    && (forall k :: k in p.deadTasks ==> IsDecimal(k) && 1 <= ParseNat(k) <= p.nextId && p.deadTasks[k].name == k)
  }

  /** `Proc.__init__`: only the init task, nothing completed, counter at 1. */
  function Init(now: int): (p: Proc)
    ensures Valid(p)
    ensures p.tasks.Keys == {InitId} && p.deadTasks == map[] && p.nextId == 1
    ensures p.tasks[InitId].cmdline == Some("/bin/init") && p.tasks[InitId].ptid == "0"
  {
    assert ParseNat("1") == 1 by {
      assert "1"[..0] == [];
      DigitRoundTrip(1);
      assert DigitChar(1) == '1';
    }
    Proc(map[InitId := Task(InitId, None, Some("/bin/init"), now, "0")], map[], 1)
  }

  /** The first part of `Proc.register`: advance the counter, print it as
      the new id and add a live task under it; nothing else changes. */
  function Register(p: Proc, deferred: Option<Handle>, cmdline: Option<string>, ptid: string, now: int): (r: (Proc, string))
    ensures r.0.nextId == p.nextId + 1
    ensures IsDecimal(r.1) && ParseNat(r.1) == r.0.nextId
    ensures Valid(p) ==> Valid(r.0) && r.1 !in p.tasks && r.1 !in p.deadTasks
    ensures Valid(p) ==> forall k :: k in p.tasks ==> ParseNat(k) < ParseNat(r.1)
    ensures Valid(p) ==> forall k :: k in p.deadTasks ==> ParseNat(k) < ParseNat(r.1)
    ensures r.0.tasks == p.tasks[r.1 := Task(r.1, deferred, cmdline, now, ptid)]
    ensures r.0.deadTasks == p.deadTasks
    ensures forall now' :: Uptime(r.0.tasks[r.1], now') == now' - now
  {
    var n := p.nextId + 1;
    var id := NatToString(n);
    ParseNatToString(n);
    (Proc(p.tasks[id := Task(id, deferred, cmdline, now, ptid)], p.deadTasks, n), id)
  }

  /** `Proc.register` with its `addBoth` wiring. A deferred that has already
      fired runs `_unregister` inside `addBoth`, so the new task is completed
      before `register` returns; a pending one leaves it live until `Settle`
      runs, and without a deferred nothing is attached. */
  function RegisterWired(p: Proc, deferred: Option<Handle>, fired: bool, cmdline: Option<string>, ptid: string, now: int): (r: (Proc, string))
    ensures r.1 == Register(p, deferred, cmdline, ptid, now).1 && r.0.nextId == p.nextId + 1
    ensures deferred.Some? && fired ==> r.1 !in r.0.tasks && r.0.deadTasks == p.deadTasks[r.1 := Task(r.1, deferred, cmdline, now, ptid)]
    ensures deferred.Some? && fired && Valid(p) ==> r.0.tasks == p.tasks
    ensures !(deferred.Some? && fired) ==> r.0 == Register(p, deferred, cmdline, ptid, now).0 && r.1 in r.0.tasks
    ensures Valid(p) ==> Valid(r.0)
  {
    var (q, id) := Register(p, deferred, cmdline, ptid, now);
    if deferred.Some? && fired then (Unregister(q, id).value, id) else (q, id)
  }

  /** `register(deferred)` with the default command line and parent task. */
  function RegisterDefault(p: Proc, deferred: Option<Handle>, now: int): (r: (Proc, string))
    ensures r.1 in r.0.tasks && r.0.tasks[r.1].ptid == DefaultPtid && r.0.tasks[r.1].cmdline == None
  {
    Register(p, deferred, None, DefaultPtid, now)
  }

  /** `Proc.unregister`: move the same task from live to completed; an id that
      is not live raises KeyError. */
  function Unregister(p: Proc, id: string): (r: Result<Proc>)
    ensures r.Err? <==> id !in p.tasks
    ensures r.Err? ==> r.error == KeyError(id)
    ensures r.Ok? ==> && r.value.tasks == p.tasks - {id}
                      && r.value.deadTasks == p.deadTasks[id := p.tasks[id]]
                      && r.value.nextId == p.nextId
    ensures Valid(p) && r.Ok? ==> Valid(r.value)
  {
    if id !in p.tasks then Err(KeyError(id))
    else Ok(Proc(p.tasks - {id}, p.deadTasks[id := p.tasks[id]], p.nextId))
  }

  /** `Proc._unregister`, the callback attached with `addBoth`: it runs on
      success and on failure alike, unregisters the task and passes the
      result through; a second settlement fails with KeyError. */
  function Settle<R>(p: Proc, id: string, res: R): (r: (Proc, Result<R>))
    ensures id in p.tasks ==> r.1 == Ok(res) && id in r.0.deadTasks && id !in r.0.tasks
    ensures id in p.tasks ==> r.0 == Unregister(p, id).value
    ensures id !in p.tasks ==> r == (p, Err(KeyError(id)))
  {
    match Unregister(p, id)
    case Ok(p') => (p', Ok(res))
    case Err(e) => (p, Err(e))
  }

  /** A task is moved at most once: unregistering it again fails. */
  lemma UnregisterOnce(p: Proc, id: string)
    requires Valid(p) && id in p.tasks
    ensures Unregister(Unregister(p, id).value, id) == Err(KeyError(id))
  {
  }

  /** `Proc.content()`: the live tasks and a `completed` container, which
      shadows a live task of that name. */
  function Content(p: Proc): (r: map<string, Entry>)
    ensures r.Keys == p.tasks.Keys + {CompletedName}
    ensures forall k :: k in p.tasks && k != CompletedName ==> r[k] == LiveTask(p.tasks[k])
    ensures r[CompletedName] == Completed(p.deadTasks)
  {
    (map k | k in p.tasks :: LiveTask(p.tasks[k]))[CompletedName := Completed(p.deadTasks)]
  }

  /** `CompletedProc.content()` of the registry's `completed` child: the
      dictionary it was built on, which is the registry's completed tasks. */
  function CompletedContent(p: Proc): (r: map<string, Task>)
    ensures r == p.deadTasks
  {
    Content(p)[CompletedName].tasks
  }

  /** Under the invariant no task id is `completed`, so the listing is every
      live task plus the completed container, whose own content is exactly the
      completed tasks. */
  lemma ContentListsEveryTask(p: Proc)
    requires Valid(p)
    ensures forall k :: k in p.tasks ==> k in Content(p) && Content(p)[k] == LiveTask(p.tasks[k])
    ensures Content(p)[CompletedName].Completed? && CompletedContent(p) == p.deadTasks
  {
    assert CompletedName !in p.tasks by {
      assert !IsDigit(CompletedName[0]);
    }
  }

  /** `Task.uptime`: seconds since registration, on an integer clock. */
  function Uptime(t: Task, now: int): (r: int)
    ensures t.timestamp + r == now
    ensures now >= t.timestamp ==> r >= 0
  {
    now - t.timestamp
  }

  // ---------------------------------------------------------------- traces

  datatype Op = Reg(deferred: Option<Handle>, fired: bool, cmdline: Option<string>, ptid: string, at: int) | Unreg(id: string)

  /** One operation; an unregister that fails leaves the registry as it was. */
  function Step(p: Proc, op: Op): (r: Proc)
    ensures Valid(p) ==> Valid(r)
  {
    match op
    case Reg(d, f, c, t, at) => RegisterWired(p, d, f, c, t, at).0
    case Unreg(id) => if id in p.tasks then Unregister(p, id).value else p
  }

  function Run(p: Proc, ops: seq<Op>): (r: Proc)
    ensures Valid(p) ==> Valid(r)
    decreases |ops|
  {
    if |ops| == 0 then p else Run(Step(p, ops[0]), ops[1..])
  }

  /** Along any sequence of operations the live and completed ids stay
      disjoint, the set of ids ever handed out only grows, the counter never
      goes down, and completed tasks are never lost or changed. */
  lemma {:induction false} RunKeepsHistory(p: Proc, ops: seq<Op>)
    requires Valid(p)
    ensures var q := Run(p, ops);
            && q.tasks.Keys !! q.deadTasks.Keys
            && p.tasks.Keys + p.deadTasks.Keys <= q.tasks.Keys + q.deadTasks.Keys
            && p.nextId <= q.nextId
            && (forall k :: k in p.deadTasks ==> k in q.deadTasks && q.deadTasks[k] == p.deadTasks[k])
    decreases |ops|
  {
    if |ops| > 0 {
      RunKeepsHistory(Step(p, ops[0]), ops[1..]);
    }
  }

  /** Ids are strictly increasing: each registration prints a number larger
      than every id handed out before, so ids are never reused. */
  lemma RegisterIdsIncrease(p: Proc, a: Op, b: Op)
    requires a.Reg? && b.Reg?
    ensures var (p1, id1) := Register(p, a.deferred, a.cmdline, a.ptid, a.at);
            var (p2, id2) := Register(p1, b.deferred, b.cmdline, b.ptid, b.at);
            ParseNat(id1) < ParseNat(id2) && id1 != id2 && id1 == NatToString(p.nextId + 1)
  {
  }

  /** The first id handed out after start-up is "2". */
  lemma FirstRegisteredId(now: int, deferred: Option<Handle>, cmdline: Option<string>, ptid: string, at: int)
    ensures Register(Init(now), deferred, cmdline, ptid, at).1 == "2"
  {
    assert NatToString(2) == [DigitChar(2)];
  }
}

=== FILE: results.dfy ===
/** Failure-carrying values shared by every module of the model.
    `Error` names the Python exceptions the modelled code can raise. */
module Results {

  datatype Option<+T> = None | Some(value: T)

  datatype Error =
    | KeyError(key: string)
    | AttributeError(attribute: string)
    | ContainmentRejected(expected: string)
    | AssertionFailed
    | ValueError
    | TypeError
    | Unauthorized(attribute: string)

  datatype Result<+T> = Ok(value: T) | Err(error: Error) {

    predicate IsFailure() {
      Err?
    }

    function PropagateFailure<U>(): Result<U>
      requires Err?
    {
      Err(error)
    }

    function Extract(): T
      requires Ok?
    {
      value
    }
  }
}

=== FILE: security.dfy ===
/** `SecurityGrokker.execute`: a class's `permissions` declarations become
    configuration actions that protect reading (and, for `(read, write)`
    pairs, writing) each attribute; the actions build the class's read and
    write permission tables, which the checker consults. */
module Security {
  import opened Results

  type Permission = string

  /** zope's public permission: every principal holds it. */
  const PublicPermission: Permission := "zope.Public"

  /** One declared entry: a bare permission, or a `(read, write)` tuple. */
  datatype Decl = ReadOnly(read: Permission) | ReadWrite(read: Permission, write: Permission) {
    function ReadPerm(): Permission {
      match this
      case ReadOnly(r) => r
      case ReadWrite(r, _) => r
    }
  }

  /** One `permissions(dict(...))` level, its items in iteration order. */
  type Level = seq<(string, Decl)>

  /** `enforce_attribute_rights_definition` true selects a plain dictionary
      (Enforcing); false, the auditing dictionary. */
  datatype Mode = Enforcing | Auditing

  /** A registered configuration action, with its discriminator fields. */
  datatype Action =
    | ProtectName(factory: string, name: string, perm: Permission)      // ('protectName', factory, name)
    | ProtectNameSet(factory: string, name: string, perm: Permission)   // ('protectNameSet', factory, name)

  /** The outcome of `execute`: whether the class was handled, the checker
      mode defined for it, and the actions registered. */
  datatype Grokked = Grokked(handled: bool, mode: Option<Mode>, actions: seq<Action>)

  /** Read and write permission tables of one class. */
  datatype Table = Table(read: map<string, Permission>, write: map<string, Permission>)

  /** The declared entries of all levels, in the order the grokker visits them. */
  function Flatten(levels: seq<Level>): seq<(string, Decl)>
    decreases |levels|
  {
    if |levels| == 0 then [] else Flatten(levels[..|levels| - 1]) + levels[|levels| - 1]
  }

  /** The actions for one entry: a tuple protects setting, then getting. */
  function EntryActions(factory: string, e: (string, Decl)): seq<Action> {
    match e.1
    case ReadWrite(r, w) => [ProtectNameSet(factory, e.0, w), ProtectName(factory, e.0, r)]
    case ReadOnly(r) => [ProtectName(factory, e.0, r)]
  }

  function EntriesActions(factory: string, es: seq<(string, Decl)>): seq<Action>
    decreases |es|
  {
    if |es| == 0 then [] else EntriesActions(factory, es[..|es| - 1]) + EntryActions(factory, es[|es| - 1])
  }

  /** `SecurityGrokker.execute`: an empty declaration handles nothing;
      otherwise the mode follows the configuration flag and every entry of
      every level registers its actions for this factory. */
  function Execute(factory: string, enforce: bool, levels: seq<Level>): (r: Grokked)
    ensures |levels| == 0 <==> !r.handled
    ensures !r.handled ==> r.mode == None && r.actions == []
    ensures r.handled ==> r.mode == Some(if enforce then Enforcing else Auditing)
    ensures forall i :: 0 <= i < |r.actions| ==> r.actions[i].factory == factory
  {
    if |levels| == 0 then Grokked(false, None, [])
    else
      var actions := EntriesActions(factory, Flatten(levels));
      ActionsNameFactory(factory, Flatten(levels));
      Grokked(true, Some(if enforce then Enforcing else Auditing), actions)
  }

  lemma {:induction false} ActionsNameFactory(factory: string, es: seq<(string, Decl)>)
    ensures forall i :: 0 <= i < |EntriesActions(factory, es)| ==> EntriesActions(factory, es)[i].factory == factory
    decreases |es|
  {
    if |es| > 0 {
      ActionsNameFactory(factory, es[..|es| - 1]);
    }
  }

  // ---------------------------------------------------------------- the table

  /** Performing one action: `protect_getattr` or `protect_setattr` records
      the permission under the name. A later action with the same
      discriminator replaces an earlier one. */
  function Perform(t: Table, a: Action): Table {
    match a
    case ProtectName(_, n, p) => t.(read := t.read[n := p])
    case ProtectNameSet(_, n, p) => t.(write := t.write[n := p])
  }

  function PerformAll(t: Table, actions: seq<Action>): Table
    decreases |actions|
  {
    if |actions| == 0 then t else Perform(PerformAll(t, actions[..|actions| - 1]), actions[|actions| - 1])
  }

  const EmptyTable: Table := Table(map[], map[])

  /** The tables a grokked class ends up with. */
  function TableOf(g: Grokked): Table {
    PerformAll(EmptyTable, g.actions)
  }

  lemma {:induction false} PerformAllAppend(t: Table, a: seq<Action>, b: seq<Action>)
    ensures PerformAll(t, a + b) == PerformAll(PerformAll(t, a), b)
    decreases |b|
  {
    if |b| == 0 {
      assert a + b == a;
    } else {
      assert (a + b)[..|a + b| - 1] == a + b[..|b| - 1];
      PerformAllAppend(t, a, b[..|b| - 1]);
    }
  }

  /** Reference: the last declaration of `name` among the entries. */
  function LastDecl(es: seq<(string, Decl)>, name: string): Option<Decl>
    decreases |es|
  {
    if |es| == 0 then None
    else if es[|es| - 1].0 == name then Some(es[|es| - 1].1)
    else LastDecl(es[..|es| - 1], name)
  }

  /** Reference: the write permission of the last tuple declaration of `name`. */
  function LastWrite(es: seq<(string, Decl)>, name: string): Option<Permission>
    decreases |es|
  {
    if |es| == 0 then None
    else if es[|es| - 1].0 == name && es[|es| - 1].1.ReadWrite? then Some(es[|es| - 1].1.write)
    else LastWrite(es[..|es| - 1], name)
  }

  /** The read table holds the read permission of each name's last
      declaration; the write table holds the write permission of its last
      tuple declaration, and nothing for names only ever declared bare. */
  lemma {:induction false} TableFromEntries(factory: string, es: seq<(string, Decl)>, name: string)
    ensures var t := PerformAll(EmptyTable, EntriesActions(factory, es));
            && (name in t.read <==> LastDecl(es, name).Some?)
            && (name in t.read ==> t.read[name] == LastDecl(es, name).value.ReadPerm())
            && (name in t.write <==> LastWrite(es, name).Some?)
            && (name in t.write ==> t.write[name] == LastWrite(es, name).value)
    decreases |es|
  {
    if |es| > 0 {
      var init := es[..|es| - 1];
      var e := es[|es| - 1];
      TableFromEntries(factory, init, name);
      PerformAllAppend(EmptyTable, EntriesActions(factory, init), EntryActions(factory, e));
      var t0 := PerformAll(EmptyTable, EntriesActions(factory, init));
      match e.1
      case ReadOnly(r) =>
        assert PerformAll(t0, EntryActions(factory, e)) == Perform(PerformAll(t0, []), ProtectName(factory, e.0, r));
      case ReadWrite(r, w) =>
        var acts := EntryActions(factory, e);
        assert acts[..1] == [ProtectNameSet(factory, e.0, w)];
        assert PerformAll(t0, acts) == Perform(Perform(PerformAll(t0, []), ProtectNameSet(factory, e.0, w)), ProtectName(factory, e.0, r));
    }
  }

  /** The declared-somewhere and declared-as-tuple readings of the reference. */
  lemma {:induction false} LastDeclDeclared(es: seq<(string, Decl)>, name: string)
    ensures LastDecl(es, name).Some? <==> exists i :: 0 <= i < |es| && es[i].0 == name
    ensures LastWrite(es, name).Some? <==> exists i :: 0 <= i < |es| && es[i].0 == name && es[i].1.ReadWrite?
    decreases |es|
  {
    if |es| > 0 {
      var init := es[..|es| - 1];
      LastDeclDeclared(init, name);
      if exists i :: 0 <= i < |es| && es[i].0 == name {
        var i :| 0 <= i < |es| && es[i].0 == name;
        if i < |es| - 1 {
          assert init[i] == es[i];
        }
      }
      if exists i :: 0 <= i < |es| && es[i].0 == name && es[i].1.ReadWrite? {
        var i :| 0 <= i < |es| && es[i].0 == name && es[i].1.ReadWrite?;
        if i < |es| - 1 {
          assert init[i] == es[i];
        }
      }
    }
  }

  /** Every declared name gets a read protection, and a write protection
      exactly when some declaration of it is a `(read, write)` tuple. A name
      declared once as a tuple `(r, w)` reads with `r` and writes with `w`;
      declared once bare, it has no write protection. */
  lemma ExecuteTable(factory: string, enforce: bool, levels: seq<Level>, name: string)
    requires |levels| > 0
    ensures var es := Flatten(levels);
            var t := TableOf(Execute(factory, enforce, levels));
            && (name in t.read <==> exists i :: 0 <= i < |es| && es[i].0 == name)
            && (name in t.write <==> exists i :: 0 <= i < |es| && es[i].0 == name && es[i].1.ReadWrite?)
            && (forall i :: (0 <= i < |es| && es[i].0 == name
                             && forall j :: 0 <= j < |es| && j != i ==> es[j].0 != name) ==>
                  t.read[name] == es[i].1.ReadPerm()
                  && (es[i].1.ReadWrite? ==> t.write[name] == es[i].1.write)
                  && (es[i].1.ReadOnly? ==> name !in t.write))
  {
    var es := Flatten(levels);
    TableFromEntries(factory, es, name);
    LastDeclDeclared(es, name);
    forall i | 0 <= i < |es| && es[i].0 == name && (forall j :: 0 <= j < |es| && j != i ==> es[j].0 != name)
      ensures LastDecl(es, name) == Some(es[i].1)
      ensures LastWrite(es, name) == (if es[i].1.ReadWrite? then Some(es[i].1.write) else None)
    {
      OnlyDeclaration(es, name, i);
    }
  }

  lemma {:induction false} OnlyDeclaration(es: seq<(string, Decl)>, name: string, i: nat)
    requires i < |es| && es[i].0 == name
    requires forall j :: 0 <= j < |es| && j != i ==> es[j].0 != name
    ensures LastDecl(es, name) == Some(es[i].1)
    ensures LastWrite(es, name) == (if es[i].1.ReadWrite? then Some(es[i].1.write) else None)
    decreases |es|
  {
    var init := es[..|es| - 1];
    if i < |es| - 1 {
      forall j | 0 <= j < |init| && j != i ensures init[j].0 != name {
        assert init[j] == es[j];
      }
      OnlyDeclaration(init, name, i);
    } else {
      forall j | 0 <= j < |init| ensures init[j].0 != name {
        assert init[j] == es[j];
      }
      LastDeclDeclared(init, name);
    }
  }

  // ---------------------------------------------------------------- checking

  /** Reading an attribute: a declared name needs its read permission (the
      public one is always held); an undeclared name is refused in
      Enforcing mode and let through by the auditing dictionary. */
  function CheckRead(t: Table, mode: Mode, name: string, held: set<Permission>): (r: Result<()>)
    ensures name in t.read ==> (r.Ok? <==> t.read[name] in held || t.read[name] == PublicPermission)
    ensures name !in t.read ==> (r.Ok? <==> mode == Auditing)
    ensures r.Err? ==> r.error == Unauthorized(name)
  {
    if name in t.read then
      if t.read[name] in held || t.read[name] == PublicPermission then Ok(()) else Err(Unauthorized(name))
    else if mode == Auditing then Ok(())
    else Err(Unauthorized(name))
  }

  /** Writing an attribute: the same rule over the write table. */
  function CheckWrite(t: Table, mode: Mode, name: string, held: set<Permission>): (r: Result<()>)
    ensures name in t.write ==> (r.Ok? <==> t.write[name] in held || t.write[name] == PublicPermission)
    ensures name !in t.write ==> (r.Ok? <==> mode == Auditing)
    ensures r.Err? ==> r.error == Unauthorized(name)
  {
    if name in t.write then
      if t.write[name] in held || t.write[name] == PublicPermission then Ok(()) else Err(Unauthorized(name))
    else if mode == Auditing then Ok(())
    else Err(Unauthorized(name))
  }

  /** An attribute read through a principal's proxy: checked first, then
      looked up, so a missing attribute is reported only to a permitted reader. */
  function ReadAttr(attrs: map<string, string>, t: Table, mode: Mode, name: string, held: set<Permission>): (r: Result<string>)
    ensures r.Ok? <==> CheckRead(t, mode, name, held).Ok? && name in attrs
    ensures r.Ok? ==> r.value == attrs[name]
    ensures CheckRead(t, mode, name, held).Err? ==> r == CheckRead(t, mode, name, held).PropagateFailure()
    ensures CheckRead(t, mode, name, held).Ok? && name !in attrs ==> r == Err(AttributeError(name))
  {
    var _ :- CheckRead(t, mode, name, held);
    if name in attrs then Ok(attrs[name]) else Err(AttributeError(name))
  }

  /** The two modes agree on every declared name and differ only on
      undeclared ones. */
  lemma ModesDifferOnlyOnUndeclared(t: Table, name: string, held: set<Permission>)
    ensures name in t.read ==> CheckRead(t, Enforcing, name, held) == CheckRead(t, Auditing, name, held)
    ensures name !in t.read ==> CheckRead(t, Enforcing, name, held).Err? && CheckRead(t, Auditing, name, held).Ok?
  {
  }

  /** The access scenario of the security test: a class declaring only
      `architecture` readable with "read"; user1 holds "read", user2 only
      "zope.Nothing". */
  lemma ComputeScenario()
    ensures var g := Execute("Compute", true, [[("architecture", ReadOnly("read"))]]);
            var t := TableOf(g);
            var attrs := map["architecture" := "linux", "state" := "active"];
            && g.handled && g.mode == Some(Enforcing)
            && ReadAttr(attrs, t, Enforcing, "architecture", {"read"}) == Ok("linux")
            && ReadAttr(attrs, t, Enforcing, "architecture", {"zope.Nothing"}) == Err(Unauthorized("architecture"))
            && ReadAttr(attrs, t, Enforcing, "state", {"read"}) == Err(Unauthorized("state"))
  {
    var levels := [[("architecture", ReadOnly("read"))]];
    var es := Flatten(levels);
    assert es == [("architecture", ReadOnly("read"))] by {
      assert levels[..0] == [];
    }
    var acts := EntriesActions("Compute", es);
    assert acts == [ProtectName("Compute", "architecture", "read")] by {
      assert es[..0] == [];
    }
    assert acts[..0] == [];
    assert TableOf(Execute("Compute", true, levels)) == Table(map["architecture" := "read"], map[]);
  }
}

=== FILE: strings.dfy ===
/** String helpers: Python's `str.startswith` and `str()` of a non-negative integer. */
module Strings {

  /** `s.startswith(prefix)`. */
  predicate StartsWith(s: string, prefix: string) {
    prefix <= s
  }

  predicate IsDigit(c: char) {
    '0' <= c <= '9'
  }

  /** A non-empty run of decimal digits: the shape of `str(n)` for `n >= 0`. */
  predicate IsDecimal(s: string) {
    |s| > 0 && forall i :: 0 <= i < |s| ==> IsDigit(s[i])
  }

  function DigitChar(d: nat): (c: char)
    requires d < 10
    ensures IsDigit(c)
  {
    "0123456789"[d]
  }

  function DigitValue(c: char): (d: nat)
    requires IsDigit(c)
    ensures d < 10
  {
    (c as int - '0' as int) as nat
  }

  lemma DigitRoundTrip(d: nat)
    requires d < 10
    ensures DigitValue(DigitChar(d)) == d
  {
    assert "0123456789"[d] as int == '0' as int + d by {
      assert "0123456789"[0] == '0';
      assert "0123456789"[9] == '9';
    }
  }

  /** `str(n)`: decimal, no leading zeros. */
  function NatToString(n: nat): (s: string)
    ensures IsDecimal(s)
    ensures n >= 10 ==> s[0] != '0'
    decreases n
  {
    if n < 10 then [DigitChar(n)] else NatToString(n / 10) + [DigitChar(n % 10)]
  }

  /** `int(s)` for a string of digits. */
  function ParseNat(s: string): (n: nat)
    requires forall i :: 0 <= i < |s| ==> IsDigit(s[i])
    decreases |s|
  {
    if |s| == 0 then 0 else ParseNat(s[..|s| - 1]) * 10 + DigitValue(s[|s| - 1])
  }

  /** `int(str(n)) == n`. */
  lemma {:induction false} ParseNatToString(n: nat)
    ensures ParseNat(NatToString(n)) == n
    decreases n
  {
    var s := NatToString(n);
    if n < 10 {
      DigitRoundTrip(n);
      assert s[..0] == [];
    } else {
      ParseNatToString(n / 10);
      DigitRoundTrip(n % 10);
      assert s[..|s| - 1] == NatToString(n / 10);
    }
  }

  /** Distinct numbers print as distinct strings, so ids made by `str` never collide. */
  lemma NatToStringInjective(a: nat, b: nat)
    ensures NatToString(a) == NatToString(b) <==> a == b
  {
    if NatToString(a) == NatToString(b) {
      ParseNatToString(a);
      ParseNatToString(b);
    }
  }
}
